=== FILE: README.md ===
# Peridigm contact manager — a Dafny model

Peridigm's `ContactManager` (src/core/Peridigm_ContactManager.cpp) owns the contact
decomposition of a peridynamic simulation. This project models the parts of it that
are logic rather than communication:

- **Configuration** (constructor and `initialize`). The search radius and frequency
  are required. Each "Blocks" entry's "Block Names" string is split into words, and
  every word other than the default marker becomes a contact block. Its ID is read
  from the text after the last `_` with C++ `stringstream >> int` rules. A name
  without `_`, or with only white space after it, has no block ID: the first is the
  source's parse error, and the second would leave the ID unset, so the model makes
  it the fault `UnreadBlockId`. The default
  marker makes every discretization block that is not yet listed a block with the
  default parameter list. `initialize` then gives each block its horizon (its own,
  else the "default" one) and the first contact model's parameters, adding the
  horizon and a friction coefficient of 0.
- **Rebalance** (`rebalance`, `createRebalancedBondMap`, `contactSearch`,
  `createRebalancedNeighborGlobalIDList`, `createRebalancedNeighborhoodData`,
  `createRebalancedContactNeighborhoodData`). On every step that is a multiple of the
  search frequency, one rank's state moves to a new owned map:
  - the bond counts are imported and compacted into a bond map without empty
    elements;
  - the current bond table is decoded back to neighbour global IDs and imported onto
    the new bond map;
  - the range-search result is filtered against the bonds;
  - the ghosts are collected in ascending order;
  - the overlap map and both neighbourhood tables are rebuilt.

Epetra maps are sequences of global IDs, and a local ID is a slot in that sequence.
An import is a lookup keyed by global ID: this rank's contribution is computed, and
the other ranks' contributions are inputs. The owned map of the new decomposition and
the range-search result are also inputs (the `Exchange` datatype). `std::set<int>` is
a strictly increasing sequence. `std::map<int, vector<int>>` is a Dafny map. A
neighbourhood table is the count-prefixed list `count, id, id, ..., count, ...` with a
start offset per owned point. Fatal errors (`TEUCHOS_TEST_FOR_EXCEPTION`, a missing
parameter, a missing sublist) are the `Err` values of a `Result`.

Modules, in dependency order: `Failures`, `Sequences`, `OrderedSets`, `IndexMaps`,
`NeighborhoodTables`, `BondMigration`, `ContactSearch`, `NeighborhoodBuild`,
`BlockNames`, `Configuration`, `CppIntegers`, `Rebalance`.

## Model

| member | source | states |
|---|---|---|
| OrderedSets.Insert | src/core/Peridigm_ContactManager.cpp:314-319 | inserting into an ascending set keeps it ascending, adds exactly the new ID, and grows by one exactly when the ID was absent |
| OrderedSets.InsertAll | src/core/Peridigm_ContactManager.cpp:330-332 | the union of the ghost set with the off-processor contact IDs is ascending and holds exactly the members of both |
| OrderedSets.InsertMissing | src/core/Peridigm_ContactManager.cpp:540-544 | inserting the IDs of a list that an excluded list lacks gives an ascending set of exactly those IDs plus the prior members |
| IndexMaps.Lid | src/core/Peridigm_ContactManager.cpp:453 | `LID` is -1 exactly when the map lacks the global ID, and otherwise the first slot that holds it |
| IndexMaps.LidOfDistinct | src/core/Peridigm_ContactManager.cpp:581 | in a map without repeated IDs, the local ID of the ID at slot i is i |
| IndexMaps.ElementValuesAtFirstPoint | src/core/Peridigm_ContactManager.cpp:526-531 | element k of a block vector is the slice that starts at `FirstPointInElementList()[k]` and is `ElementSize(k)` long |
| IndexMaps.ImportScalarsRoundTrip | src/core/Peridigm_ContactManager.cpp:457-458 | importing a vector onto the map it lives on gives it back, whatever other ranks contribute |
| IndexMaps.ImportBlocks | src/core/Peridigm_ContactManager.cpp:565-566 | the imported block vector has the target's point count, and each element is the exchanged block of that size or zeros |
| IndexMaps.ImportBlocksRoundTrip | src/core/Peridigm_ContactManager.cpp:565-566 | importing a block vector onto its own block map gives it back, whatever other ranks contribute |
| NeighborhoodTables.Decode | src/core/Peridigm_ContactManager.cpp:553-562 | reading n count-prefixed segments gives n segments, or fails only as a malformed list |
| NeighborhoodTables.DecodeEncode | src/core/Peridigm_ContactManager.cpp:553-562 | decoding an encoded table gives its segments back, whatever follows them |
| NeighborhoodTables.EncodeDecode | src/core/Peridigm_ContactManager.cpp:553-562 | a list whose entries read as counts are non-negative, whatever the other entries hold, is the encoding of what it decodes to, followed by ignored entries |
| NeighborhoodTables.EncodeEntry | src/core/Peridigm_ContactManager.cpp:594-610 | at `ptr[i]` the table holds segment i's count, followed by exactly segment i |
| NeighborhoodTables.EncodeNonNegative | src/core/Peridigm_ContactManager.cpp:655-659 | an encoded table has no negative entry exactly when none of its segments has one |
| BondMigration.BondCountAsWrittenMisreads | src/core/Peridigm_ContactManager.cpp:451-456 | with owned points 1,2,3,4, counts 4,0,5,6 and a compacted bond map, reading the size at owned slot i gives point 3 the count 6 instead of 5, and for point 4 reads past the end of the size list |
| BondMigration.Compact | src/core/Peridigm_ContactManager.cpp:469-479 | the rebalanced bond map is valid, no larger than the owned map, has only positive sizes, and lists only owned points |
| BondMigration.CompactMembers | src/core/Peridigm_ContactManager.cpp:469-479 | a point has an element exactly when it is owned with a positive count |
| BondMigration.CompactCount | src/core/Peridigm_ContactManager.cpp:469-479 | each owned point's element size is its count when positive, and 0 (no element) otherwise |
| BondMigration.CompactKeepsOrder | src/core/Peridigm_ContactManager.cpp:469-479 | the bond map lists its points in owned order |
| BondMigration.CompactDistinct | src/core/Peridigm_ContactManager.cpp:469-479 | a bond map compacted from an owned map without repeated IDs has none either |
| BondMigration.CreateRebalancedBondMap | src/core/Peridigm_ContactManager.cpp:462-482 | the loop that writes slot `i - numPointsWithZeroNeighbors` builds the compaction, and the skipped points plus the elements make up the owned map |
| BondMigration.CountsRoundTrip | src/core/Peridigm_ContactManager.cpp:450-479 | counts read at the bond map's own local IDs reproduce the bond map when compacted again over the same owned map |
| BondMigration.BondedNeighbors | src/core/Peridigm_ContactManager.cpp:523-531 | a point's bonded neighbour list is the slice of the neighbour vector from its element's first point, its bond count long, and is empty without an element |
| BondMigration.BondGhosts | src/core/Peridigm_ContactManager.cpp:314-319 | the bond ghosts are ascending, and are exactly the neighbour IDs this rank does not own |
| BondMigration.BondedNeighborsCover | src/core/Peridigm_ContactManager.cpp:594-611 | over a bond map compacted from the owned map, the bonded lists in owned order concatenate to the whole neighbour vector |
| ContactSearch.RetainUnbonded | src/core/Peridigm_ContactManager.cpp:537-541 | the kept neighbours are exactly the found ones that are not bonded, in search order |
| ContactSearch.RetainUnbondedCounts | src/core/Peridigm_ContactManager.cpp:537-541 | every unbonded neighbour is kept as often as the search found it, and a bonded one never |
| ContactSearch.NoBondsNoExclusion | src/core/Peridigm_ContactManager.cpp:523-525 | a point without a bond map element keeps every found neighbour |
| ContactSearch.FilterSearch | src/core/Peridigm_ContactManager.cpp:516-546 | the contact map has an entry for exactly the searched IDs, and the off-processor set is ascending |
| ContactSearch.FilterSearchExcludesBonds | src/core/Peridigm_ContactManager.cpp:539-541 | no contact neighbour of a point is one of its bonded neighbours |
| ContactSearch.FilterSearchOffProcessor | src/core/Peridigm_ContactManager.cpp:540-543 | an ID is off-processor exactly when it is not owned and some contact list holds it |
| ContactSearch.FilterSearchDistinct | src/core/Peridigm_ContactManager.cpp:518-541 | when each point is searched once, its contact list is its found neighbours without its bonded ones |
| ContactSearch.FilterSearchFound | src/core/Peridigm_ContactManager.cpp:536-541 | every contact neighbour was found near its point by the search |
| ContactSearch.SearchContacts | src/core/Peridigm_ContactManager.cpp:514-546 | the search fails exactly when its result list is malformed; otherwise it has one contact entry per searched ID |
| NeighborhoodBuild.Resolve | src/core/Peridigm_ContactManager.cpp:579-584 | owned IDs resolve exactly when the overlap map holds them all, to their local IDs; otherwise the fault names a missing ID |
| NeighborhoodBuild.OverlapLayout | src/core/Peridigm_ContactManager.cpp:336-343 | owned IDs then never-owned ascending ghosts give a map without repeated IDs, where each owned point keeps its slot and ghost k is at slot n+k |
| NeighborhoodBuild.BondTable | src/core/Peridigm_ContactManager.cpp:571-618 | the bond table builds exactly when the overlap map holds every owned ID and bonded neighbour; otherwise the fault is an unresolved ID |
| NeighborhoodBuild.BondTableEntry | src/core/Peridigm_ContactManager.cpp:594-614 | owned point i's entry is its overlap local ID, then its bond count (0 without an element) at `ptr[i]`, followed by local IDs that map back to its bonded neighbours |
| NeighborhoodBuild.BondTableRoundTrip | src/core/Peridigm_ContactManager.cpp:594-614 | decoding the bond table through the overlap map gives the bonded lists in owned order, which is the whole neighbour vector over a compacted bond map |
| NeighborhoodBuild.BondTableSize | src/core/Peridigm_ContactManager.cpp:585 | the bond table fills exactly the allocated size: owned points plus bond map points |
| NeighborhoodBuild.BondTableNonNegative | src/core/Peridigm_ContactManager.cpp:607-609 | a bond table that builds stores no -1 |
| NeighborhoodBuild.BondEntryReadsBack | src/core/Peridigm_ContactManager.cpp:600-610 | owned point i's bond entry maps back through the overlap map to its bonded neighbours |
| NeighborhoodBuild.ContactLists | src/core/Peridigm_ContactManager.cpp:650-653 | the contact lists of the owned points exist exactly when the contact map has a key for each; otherwise the fault names an owned point without one |
| NeighborhoodBuild.ContactTable | src/core/Peridigm_ContactManager.cpp:621-663 | the contact table builds exactly when every owned ID is in the overlap map and in the contact map; otherwise the fault names which check failed |
| NeighborhoodBuild.ContactTableEntry | src/core/Peridigm_ContactManager.cpp:646-659 | owned point i's contact entry is its list length at `ptr[i]`, followed by the unchecked local IDs of its contact neighbours |
| NeighborhoodBuild.ContactEntryReadsBack | src/core/Peridigm_ContactManager.cpp:655-659 | the contact entry maps back to the point's contact neighbours when the overlap map holds them all |
| NeighborhoodBuild.ContactTableNonNegative | src/core/Peridigm_ContactManager.cpp:658 | when every contact neighbour is in the overlap map, the contact table stores no -1 |
| NeighborhoodBuild.ContactTableStoresMinusOne | src/core/Peridigm_ContactManager.cpp:658 | a contact neighbour outside the overlap map is stored as -1 without an error |
| NeighborhoodBuild.ContactTableSize | src/core/Peridigm_ContactManager.cpp:636-639 | the contact list fills the size allocated from all map entries exactly when the map has entries for the owned points and nothing else |
| BlockNames.Tokenize | src/core/Peridigm_ContactManager.cpp:98-102 | reading a string word by word yields only non-empty words without white space |
| BlockNames.TokenizeSpaced | src/core/Peridigm_ContactManager.cpp:98-102 | words written with any white space before or after them and at least one white-space character between them (blanks, tabs or line breaks, repeated or not) read back as exactly those words |
| BlockNames.TokenizeGaps | src/core/Peridigm_ContactManager.cpp:98-102 | every string is its words written with white space around them, so reading yields the maximal runs without white space, in order, and nothing else |
| BlockNames.TokenizeMixedSpace | src/core/Peridigm_ContactManager.cpp:98-102 | a block list with a leading tab, a doubled blank and a trailing newline reads as its two names |
| BlockNames.LastIndexOf | src/core/Peridigm_ContactManager.cpp:111 | `find_last_of` is `npos` exactly when the character is absent; otherwise it is a position of the character with none after it |
| BlockNames.LastIndexOfSeparator | src/core/Peridigm_ContactManager.cpp:111 | the last `_` of `a_b` is the one after `a` when `b` has none |
| BlockNames.ExtractInt | src/core/Peridigm_ContactManager.cpp:113-115 | `stringstream >> int` reads nothing exactly when only white space remains, and otherwise gives a value in the 32-bit range |
| BlockNames.ExtractIntDecimal | src/core/Peridigm_ContactManager.cpp:113-115 | a numeral followed by non-digits reads as its value, clamped to the largest `int` |
| BlockNames.ExtractIntNegative | src/core/Peridigm_ContactManager.cpp:113-115 | a minus sign and a numeral within range read as the negative value |
| BlockNames.BlockId | src/core/Peridigm_ContactManager.cpp:111-115 | a name fails exactly when it has no `_` or only white space after its last `_`; the fault names it and says which, and otherwise the ID is a 32-bit value read from that text |
| BlockNames.BlockIdOfSuffix | src/core/Peridigm_ContactManager.cpp:111-115 | a name `prefix_n` has block ID n, whatever the prefix holds |
| BlockNames.BlockIdWithoutDigits | src/core/Peridigm_ContactManager.cpp:113-115 | a non-empty suffix after the last `_` with no white space, sign or digit in it reads as block ID 0 |
| BlockNames.BlockIdBlankSuffix | src/core/Peridigm_ContactManager.cpp:111-115 | a name with only white space (or nothing) after its last `_` has no readable ID, and the fault names it |
| Configuration.Required | src/core/Peridigm_ContactManager.cpp:72-77 | a parameter is read exactly when it is present; otherwise the fault names it |
| Configuration.EntryBlocksFails | src/core/Peridigm_ContactManager.cpp:103-112 | an entry fails exactly at a non-default word that has no block ID, and the fault names that word |
| Configuration.EntryBlocksNames | src/core/Peridigm_ContactManager.cpp:103-118 | an entry's blocks are its non-default words in order, each with the ID its name gives and the entry's parameter list |
| Configuration.ExplicitBlocksFails | src/core/Peridigm_ContactManager.cpp:93-120 | the block section fails exactly when an entry lacks "Block Names" or a non-default word has no block ID |
| Configuration.ExplicitBlocksNames | src/core/Peridigm_ContactManager.cpp:93-120 | the explicit blocks are the non-default words of all entries in deck order, each well named |
| Configuration.LastDefault | src/core/Peridigm_ContactManager.cpp:105-107 | the default parameter list comes from the last entry that lists the default marker, and there is none exactly when no entry lists it |
| Configuration.AddDefaultBlocksFails | src/core/Peridigm_ContactManager.cpp:123-145 | the default fill fails exactly at a discretization name without a block ID that no earlier block has |
| Configuration.AddDefaultBlocksKeeps | src/core/Peridigm_ContactManager.cpp:123-145 | the default fill only appends blocks |
| Configuration.AddDefaultBlocksCovers | src/core/Peridigm_ContactManager.cpp:123-145 | after the default fill every discretization name has a block |
| Configuration.AddDefaultBlocksAdds | src/core/Peridigm_ContactManager.cpp:134-142 | each added block is a discretization name missing before, with the default parameter list and the ID its name gives |
| Configuration.AddDefaultBlocksDistinct | src/core/Peridigm_ContactManager.cpp:125-143 | the default fill adds each missing name once |
| Configuration.Configure | src/core/Peridigm_ContactManager.cpp:72-77 | a missing search radius, then search frequency, then "Blocks" sublist is fatal in that order, and the configuration keeps the values read |
| Configuration.ConfigureBlocks | src/core/Peridigm_ContactManager.cpp:92-145 | the blocks are the explicit names in deck order, then with a default marker every discretization block not yet present, carrying the default list; all are well named |
| Configuration.ConfigureCoverage | src/core/Peridigm_ContactManager.cpp:92-145 | without a default marker, a name gets a block exactly when an entry lists it; with one, every discretization name gets a block |
| Configuration.ConfigureFails | src/core/Peridigm_ContactManager.cpp:92-145 | after the search parameters, the constructor fails exactly when an entry lacks "Block Names", a listed name has no block ID, or the default fill meets an unlisted discretization name without one |
| Configuration.BlockHorizon | src/core/Peridigm_ContactManager.cpp:167-176 | a block's horizon is its own, else the "default" one; otherwise the fault names the block |
| Configuration.ModelParams | src/core/Peridigm_ContactManager.cpp:181-186 | the first model's parameters gain the horizon and a friction coefficient defaulting to 0, and nothing else changes; fails exactly on a missing or empty "Models" or a model "Horizon" |
| Configuration.InitializeBlocks | src/core/Peridigm_ContactManager.cpp:164-191 | each block, in order, gets the model parameters for its own horizon |
| Configuration.InitializeSucceeds | src/core/Peridigm_ContactManager.cpp:164-191 | `initialize` fails exactly when there is a block and either some block has no horizon or the model parameters are unusable |
| CppIntegers.CppRem | src/core/Peridigm_ContactManager.cpp:292 | the C++ remainder is smaller than the divisor in magnitude and has the dividend's sign |
| CppIntegers.CppDivision | src/core/Peridigm_ContactManager.cpp:292 | truncating quotient and remainder satisfy `(a / b) * b + a % b == a` |
| CppIntegers.CppRemZero | src/core/Peridigm_ContactManager.cpp:292 | the C++ remainder is zero exactly when the Euclidean one is |
| CppIntegers.QuotientOverflows | src/core/Peridigm_ContactManager.cpp:292 | for 32-bit operands, the quotient behind `%` leaves the `int` range exactly for the smallest `int` divided by -1 |
| Rebalance.OldNeighbors | src/core/Peridigm_ContactManager.cpp:552-562 | the decoded neighbour vector has the bond map's point count; decoding fails only as a malformed table |
| Rebalance.NewCounts | src/core/Peridigm_ContactManager.cpp:450-458 | a point that stays on this rank keeps its own bond count, read at its bond map local ID as line 455 evidently intends, whatever other ranks send |
| Rebalance.NewBondMap | src/core/Peridigm_ContactManager.cpp:462-479 | the rebalanced bond map is valid, has positive sizes, and covers only new owned points |
| Rebalance.NewNeighbors | src/core/Peridigm_ContactManager.cpp:565-566 | an element that stays on this rank with its size keeps its neighbour IDs, whatever other ranks send |
| Rebalance.Ghosts | src/core/Peridigm_ContactManager.cpp:314-332 | the ghosts are ascending, and are exactly the non-owned bond neighbours plus the off-processor contact IDs |
| Rebalance.RebalanceCadence | src/core/Peridigm_ContactManager.cpp:290-293 | a zero frequency, and the smallest `int` step with frequency -1, are faults; otherwise off a multiple of the frequency the state is unchanged, and on one, of either sign, the migration runs |
| Rebalance.BondTableResolves | src/core/Peridigm_ContactManager.cpp:607-608 | on the rebuilt overlap map the bond table never hits its unresolved-ID exception |
| Rebalance.MigrateSucceeds | src/core/Peridigm_ContactManager.cpp:296-359 | the migration succeeds exactly when the old bond table and the search list decode and the search covered every new owned point; otherwise the fault is one of those |
| Rebalance.ContactNeighborGhosted | src/core/Peridigm_ContactManager.cpp:329-343 | every contact neighbour kept is in the rebuilt overlap map |
| Rebalance.MigratedGhosts | src/core/Peridigm_ContactManager.cpp:314-332 | an ID is a ghost exactly when it is not owned and a migrated bond or a kept contact refers to it |
| Rebalance.OverlapLayoutAfterMigration | src/core/Peridigm_ContactManager.cpp:334-343 | the rebuilt overlap map is the new owned map then the ghosts, ascending, with no ID repeated |
| Rebalance.MigrateConsistent | src/core/Peridigm_ContactManager.cpp:353-357 | a migration yields a state whose bond map is its own compaction and whose bond table decodes to exactly the migrated neighbour vector |
| Rebalance.RebalanceConsistent | src/core/Peridigm_ContactManager.cpp:290-357 | the rebalance keeps that state invariant on search steps and between them |
| Rebalance.MigratedContactLids | src/core/Peridigm_ContactManager.cpp:658 | within the rebalance the unchecked contact local IDs are never -1 |
| Rebalance.MigratedBondLids | src/core/Peridigm_ContactManager.cpp:579-610 | the rebuilt bond table stores no negative entry |
| Rebalance.MigratedContactEntry | src/core/Peridigm_ContactManager.cpp:646-659 | owned point i's rebuilt contact entry maps back to its kept contact neighbours |
| Rebalance.MigratedBondEntry | src/core/Peridigm_ContactManager.cpp:594-614 | owned point i's rebuilt bond entry maps back to its migrated bonded neighbours |
| Rebalance.MigratedExclusive | src/core/Peridigm_ContactManager.cpp:537-541 | in the rebuilt tables no ID is both a contact neighbour and a bonded neighbour of the same point |
| Rebalance.MigrateInPlace | src/core/Peridigm_ContactManager.cpp:450-458 | migrating a consistent state onto its own owned map keeps the bond map and carries the neighbour vector over unchanged |
| Rebalance.MigrateInPlaceKeepsBonds | src/core/Peridigm_ContactManager.cpp:550-566 | a successful migration in place leaves the bond map as it was, and the rebuilt bond table decodes to the old neighbour vector |

## Left out

- Epetra and MPI internals are not modelled: the communicator, map construction with `numGlobalElements = -1`, and the collective import.
- An import is a lookup keyed by global ID. This rank's own contribution overrides what other ranks send for the same ID.
- An imported block whose size does not match its target element reads as the fresh vector's zeros.
- The new owned map is an input: `currentConfigurationDecomp` and the Zoltan load balancing that produces it are not modelled.
- The range search (`PDNEIGH::NeighborhoodList`) is not modelled. Its searched IDs and count-prefixed result list are inputs.
- The contact model factory is not modelled: `initialize` stops at the parameter list handed to it.
- The Teuchos parameter lists are simplified. The "Blocks" entries are a sequence in deck order, and a parameter list is identified by its entry name. A value of the wrong type for `get<double>` or `get<int>` is not modelled.
- The mothership and contact-block data movement is left out, because it only moves floating-point field values. This covers `loadAllMothershipData`, `loadNeighborhoodData`, `initializeContactBlocks`, `importData`, `exportData`, the mothership vectors rebalanced in `rebalance`, and the contact blocks' own `rebalance`.
- The `DEBUG` and `DEBUGGING` console output is left out.
- Vectors store global IDs as doubles and cast them back with `(int)`. The model keeps them as integers, assuming IDs fit a double exactly.
- `contactModelParams.begin()` on an empty "Models" sublist is undefined behaviour in the source. It is modelled as the fault `EmptySublist("Models")`.
- `step % 0` is undefined behaviour in the source. It is modelled as the fault `ZeroSearchFrequency`.
- `step % -1` with the smallest `int` step is undefined behaviour in the source, because the quotient overflows. It is modelled as the fault `RemainderOverflow`.
- A block name with only white space after its last `_` leaves the source's `blockID` uninitialized. It is modelled as the fault `UnreadBlockId`.
- In the source, an old bond table with more neighbours than the bond map's points writes past the vector's end. This is modelled as `MalformedNeighborList`.
- In the source, a count-prefixed list that ends early is read out of bounds. This is also modelled as `MalformedNeighborList`.
- A negative count reads as an empty segment, because the source's counting loops then run zero times.
- Rebalance.NewCounts: reads each count at the bond map's local ID of the point, the corrected form of the line-455 finding, and not at owned slot i as the source does; the as-written read is `BondMigration.BondCountAsWritten`.
- Rebalance.MigrateSucceeds: assumes that the new owned map has no repeated IDs, as an Epetra owned map guarantees.
- Rebalance.RebalanceConsistent: assumes that the new owned map has no repeated IDs, as an Epetra owned map guarantees.

## Findings

| source | as written | input that shows it | evidently intended | confidence | as-written member | corrected member |
|---|---|---|---|---|---|---|
| src/core/Peridigm_ContactManager.cpp:455 | the bond count of owned point i is read as `bondContactMap->ElementSize(i)`, at the owned slot rather than at the bond map slot just looked up | owned points 1, 2, 3, 4 with bond counts 4, 0, 5, 6, after a rebalance has compacted the bond map to elements 1, 3, 4: point 3 gets 6 instead of 5, and point 4 is read past the three-element size list | `ElementSize(bondMapLocalID)`; the migration uses this corrected count | not executed; the slots differ as soon as an earlier owned point has no bonds | BondMigration.BondCountAsWrittenMisreads | BondMigration.CountsRoundTrip |

=== FILE: block_names.dfy ===
/** The text handling of the contact block configuration (lines 96-115, 135-139):
    splitting the "Block Names" string into words, and reading a block's ID from the
    part of its name after the last `_`. */
module BlockNames {
  import opened Failures
  import opened CppIntegers

  /** The characters `std::isspace` accepts in the "C" locale. */
  predicate IsSpace(c: char) {
    c == ' ' || c == '\t' || c == '\n' || c == '\r' || c as int == 11 || c as int == 12
  }

  /** What `istream_iterator<string>` yields: a non-empty run without white space. */
  predicate IsWord(w: string) {
    |w| > 0 && forall i :: 0 <= i < |w| ==> !IsSpace(w[i])
  }

  /** The longest prefix of `s` without white space. */
  function LeadingWord(s: string): (w: string)
    ensures w <= s
    ensures forall i :: 0 <= i < |w| ==> !IsSpace(w[i])
    ensures |w| == |s| || IsSpace(s[|w|])
  {
    if |s| == 0 || IsSpace(s[0]) then [] else [s[0]] + LeadingWord(s[1..])
  }

  /** Reading `s` word by word with `istream_iterator<string>`: white space is skipped
      and every maximal run of other characters is one word, in order. */
  function Tokenize(s: string): (r: seq<string>)
    ensures forall i :: 0 <= i < |r| ==> IsWord(r[i])
    decreases |s|
  {
    if |s| == 0 then []
    else if IsSpace(s[0]) then Tokenize(s[1..])
    else
      var w := LeadingWord(s);
      [w] + Tokenize(s[|w|..])
  }

  /** A run of white space only; it may be empty. */
  predicate IsBlank(s: string) {
    forall i :: 0 <= i < |s| ==> IsSpace(s[i])
  }

  /** The words, each followed by the white space written after it. */
  function Spaced(ws: seq<string>, gaps: seq<string>): string
    requires |gaps| == |ws|
  {
    if |ws| == 0 then "" else ws[0] + gaps[0] + Spaced(ws[1..], gaps[1..])
  }

  /** `lead + Spaced(ws, gaps)` is a way of writing the words `ws`: any white space
      before the first word, at least one white-space character between two words, and
      any white space after the last. */
  predicate Separates(lead: string, ws: seq<string>, gaps: seq<string>) {
    && IsBlank(lead)
    && |gaps| == |ws|
    && (forall i :: 0 <= i < |ws| ==> IsWord(ws[i]))
    && (forall i :: 0 <= i < |gaps| ==> IsBlank(gaps[i]))
    && (forall i :: 0 <= i < |gaps| - 1 ==> |gaps[i]| > 0)
  }

  lemma {:induction false} LeadingWordOf(w: string, rest: string)
    requires forall i :: 0 <= i < |w| ==> !IsSpace(w[i])
    requires |rest| == 0 || IsSpace(rest[0])
    ensures LeadingWord(w + rest) == w
  {
    if |w| > 0 {
      assert (w + rest)[1..] == w[1..] + rest;
      LeadingWordOf(w[1..], rest);
    } else {
      assert w + rest == rest;
    }
  }

  /** White space in front of a string adds no word. */
  lemma {:induction false} TokenizeSkipsBlank(b: string, s: string)
    requires IsBlank(b)
    ensures Tokenize(b + s) == Tokenize(s)
    decreases |b|
  {
    if |b| > 0 {
      assert (b + s)[1..] == b[1..] + s;
      TokenizeSkipsBlank(b[1..], s);
    } else {
      assert b + s == s;
    }
  }

  /** However the words are spaced, with blanks, tabs or line breaks, repeated or not,
      before, between or after them, reading the text back gives exactly the words. */
  lemma {:induction false} TokenizeSpaced(lead: string, ws: seq<string>, gaps: seq<string>)
    requires Separates(lead, ws, gaps)
    ensures Tokenize(lead + Spaced(ws, gaps)) == ws
    decreases |ws|
  {
    TokenizeSkipsBlank(lead, Spaced(ws, gaps));
    if |ws| == 0 {
      assert Tokenize(Spaced(ws, gaps)) == [];
    } else {
      var w, after := ws[0], gaps[0] + Spaced(ws[1..], gaps[1..]);
      assert Spaced(ws, gaps) == w + after;
      assert |after| == 0 || IsSpace(after[0]) by {
        if |ws| > 1 {
          assert |gaps[0]| > 0;
        }
      }
      LeadingWordOf(w, after);
      assert (w + after)[|w|..] == after;
      assert Separates(gaps[0], ws[1..], gaps[1..]);
      TokenizeSpaced(gaps[0], ws[1..], gaps[1..]);
      assert ws == [w] + ws[1..];
    }
  }

  /** A block list written with a leading tab, a doubled blank and a trailing newline
      reads as its two names. */
  lemma TokenizeMixedSpace()
    ensures Tokenize("\tblock_1  block_2\n") == ["block_1", "block_2"]
  {
    var ws, gaps := ["block_1", "block_2"], ["  ", "\n"];
    assert Separates("\t", ws, gaps);
    TokenizeSpaced("\t", ws, gaps);
    assert "\t" + Spaced(ws, gaps) == "\tblock_1  block_2\n" by {
      assert ws[1..] == ["block_2"] && gaps[1..] == ["\n"];
      assert Spaced(["block_2"], ["\n"]) == "block_2\n";
      assert Spaced(ws, gaps) == "block_1" + "  " + "block_2\n";
    }
  }

  /** The white space around the words of `s`: what comes before the first word and
      what follows each word. */
  function Gaps(s: string): (string, seq<string>)
    decreases |s|
  {
    if |s| == 0 then ("", [])
    else if IsSpace(s[0]) then
      var g := Gaps(s[1..]);
      ([s[0]] + g.0, g.1)
    else
      var w := LeadingWord(s);
      var g := Gaps(s[|w|..]);
      ("", [g.0] + g.1)
  }

  lemma SeparatesCons(w: string, ws: seq<string>, lead: string, gaps: seq<string>, rest: string)
    requires IsWord(w) && Separates(lead, ws, gaps) && (|ws| > 0 ==> |lead| > 0)
    requires lead + Spaced(ws, gaps) == rest
    ensures Separates("", [w] + ws, [lead] + gaps)
    ensures "" + Spaced([w] + ws, [lead] + gaps) == w + rest
  {
    var all, allGaps := [w] + ws, [lead] + gaps;
    assert all[1..] == ws && allGaps[1..] == gaps;
    assert Spaced(all, allGaps) == w + lead + Spaced(ws, gaps);
    assert "" + Spaced(all, allGaps) == Spaced(all, allGaps);
    forall i | 1 <= i < |all|
      ensures all[i] == ws[i - 1] && allGaps[i] == gaps[i - 1]
    {
    }
  }

  lemma SeparatesBlank(c: char, lead: string, ws: seq<string>, gaps: seq<string>, t: string)
    requires IsSpace(c) && Separates(lead, ws, gaps) && lead + Spaced(ws, gaps) == t
    ensures Separates([c] + lead, ws, gaps)
    ensures ([c] + lead) + Spaced(ws, gaps) == [c] + t
  {
    forall i | 1 <= i < |[c] + lead|
      ensures ([c] + lead)[i] == lead[i - 1]
    {
    }
  }

  /** Every string is its words written with the white space `Gaps` finds around them,
      so that `Tokenize` yields the maximal runs without white space, in order, and
      nothing else. */
  lemma {:induction false} TokenizeGaps(s: string)
    ensures Separates(Gaps(s).0, Tokenize(s), Gaps(s).1)
    ensures Gaps(s).0 + Spaced(Tokenize(s), Gaps(s).1) == s
    ensures |s| > 0 && IsSpace(s[0]) ==> |Gaps(s).0| > 0
    decreases |s|
  {
    if |s| > 0 && IsSpace(s[0]) {
      TokenizeGaps(s[1..]);
      var lead, gaps := Gaps(s[1..]).0, Gaps(s[1..]).1;
      assert Gaps(s) == ([s[0]] + lead, gaps);
      assert Tokenize(s) == Tokenize(s[1..]);
      SeparatesBlank(s[0], lead, Tokenize(s[1..]), gaps, s[1..]);
      assert s == [s[0]] + s[1..];
    } else if |s| > 0 {
      var w := LeadingWord(s);
      var rest := s[|w|..];
      TokenizeGaps(rest);
      var lead, gaps := Gaps(rest).0, Gaps(rest).1;
      var ws := Tokenize(rest);
      assert Tokenize(s) == [w] + ws;
      assert Gaps(s) == ("", [lead] + gaps);
      assert |ws| > 0 ==> |lead| > 0 by {
        if |ws| > 0 {
          assert |rest| > 0 && IsSpace(rest[0]);
        }
      }
      SeparatesCons(w, ws, lead, gaps, rest);
      assert s == w + rest;
    }
  }

  /** `std::string::find_last_of` for one character; `None` is `npos`. */
  function LastIndexOf(s: string, c: char): (r: Option<nat>)
    ensures r.None? <==> c !in s
    ensures r.Some? ==> r.value < |s| && s[r.value] == c && c !in s[r.value + 1..]
  {
    if |s| == 0 then None
    else if s[|s| - 1] == c then Some(|s| - 1)
    else
      var r := LastIndexOf(s[..|s| - 1], c);
      assert s == s[..|s| - 1] + [s[|s| - 1]];
      if r.Some? then
        assert s[r.value + 1..] == s[..|s| - 1][r.value + 1..] + [s[|s| - 1]];
        r
      else r
  }

  /** The last `c` of `a + [c] + b` is the one after `a` when `b` holds none. */
  lemma LastIndexOfSeparator(a: string, c: char, b: string)
    requires c !in b
    ensures LastIndexOf(a + [c] + b, c) == Some(|a|)
  {
    var s := a + [c] + b;
    var r := LastIndexOf(s, c);
    assert s[|a|] == c;
  }

  predicate IsDigit(c: char) {
    '0' <= c <= '9'
  }

  predicate AllDigits(s: string) {
    forall i :: 0 <= i < |s| ==> IsDigit(s[i])
  }

  /** The longest prefix of `s` made of decimal digits. */
  function DigitPrefix(s: string): (d: string)
    ensures d <= s && AllDigits(d)
    ensures |d| == |s| || !IsDigit(s[|d|])
  {
    if |s| == 0 || !IsDigit(s[0]) then [] else [s[0]] + DigitPrefix(s[1..])
  }

  /** The number a string of decimal digits denotes, most significant digit first. */
  function DecimalValue(d: string): nat
    requires AllDigits(d)
  {
    if |d| == 0 then 0
    else DecimalValue(d[..|d| - 1]) * 10 + (d[|d| - 1] as int - '0' as int)
  }

  function Clamp(v: int): (r: int)
    ensures IntMin <= r <= IntMax
    ensures IntMin <= v <= IntMax ==> r == v
  {
    if v < IntMin then IntMin else if v > IntMax then IntMax else v
  }

  function SkipSpace(s: string): (t: string)
    ensures |t| <= |s| && t == s[|s| - |t|..]
    ensures |t| == 0 || !IsSpace(t[0])
    ensures |t| == 0 <==> IsBlank(s)
  {
    if |s| > 0 && IsSpace(s[0]) then SkipSpace(s[1..]) else s
  }

  /** The value a run of digits gives, negated after a minus sign, clamped to the 32-bit
      range; no digits read as 0. */
  function DigitsValue(d: string, negative: bool): (r: int)
    requires AllDigits(d)
    ensures IntMin <= r <= IntMax
  {
    if |d| == 0 then 0
    else if negative then Clamp(-(DecimalValue(d) as int))
    else Clamp(DecimalValue(d))
  }

  /** `stringstream >> int` under C++11 rules: leading white space is skipped, an
      optional sign and the digits after it are read and the rest is ignored; without
      digits the result is 0, and a value beyond the 32-bit range is clamped to it.
      When only white space is left the stream's sentry fails before any conversion and
      the target is not written: `None`. */
  function ExtractInt(s: string): (r: Option<int>)
    ensures r.None? <==> IsBlank(s)
    ensures r.Some? ==> IntMin <= r.value <= IntMax
  {
    var t := SkipSpace(s);
    if |t| == 0 then None
    else if t[0] == '-' || t[0] == '+' then Some(DigitsValue(DigitPrefix(t[1..]), t[0] == '-'))
    else Some(DigitsValue(DigitPrefix(t), false))
  }

  /** The decimal numeral of `n`, without sign or leading zeros. */
  function Decimal(n: nat): (d: string)
    ensures |d| > 0 && AllDigits(d)
  {
    if n < 10 then [('0' as int + n) as char]
    else Decimal(n / 10) + [('0' as int + n % 10) as char]
  }

  lemma {:induction false} DecimalValueOfDecimal(n: nat)
    ensures DecimalValue(Decimal(n)) == n
  {
    if n >= 10 {
      var d := Decimal(n);
      assert d[..|d| - 1] == Decimal(n / 10);
      DecimalValueOfDecimal(n / 10);
    }
  }

  lemma {:induction false} DigitPrefixOf(d: string, rest: string)
    requires AllDigits(d)
    requires |rest| == 0 || !IsDigit(rest[0])
    ensures DigitPrefix(d + rest) == d
  {
    if |d| > 0 {
      assert (d + rest)[1..] == d[1..] + rest;
      DigitPrefixOf(d[1..], rest);
    } else {
      assert d + rest == rest;
    }
  }

  lemma SkipSpaceAtNonSpace(s: string)
    requires |s| > 0 && !IsSpace(s[0])
    ensures SkipSpace(s) == s
  {
  }

  /** A run of digits followed by something else reads as its clamped value. */
  lemma ExtractIntDigits(d: string, rest: string)
    requires |d| > 0 && AllDigits(d)
    requires |rest| == 0 || !IsDigit(rest[0])
    ensures ExtractInt(d + rest) == Some(DigitsValue(d, false))
  {
    assert (d + rest)[0] == d[0];
    SkipSpaceAtNonSpace(d + rest);
    DigitPrefixOf(d, rest);
  }

  /** The same after a minus sign. */
  lemma ExtractIntSignedDigits(d: string, rest: string)
    requires |d| > 0 && AllDigits(d)
    requires |rest| == 0 || !IsDigit(rest[0])
    ensures ExtractInt("-" + d + rest) == Some(DigitsValue(d, true))
  {
    var t := "-" + d + rest;
    assert t[0] == '-';
    SkipSpaceAtNonSpace(t);
    assert t[1..] == d + rest;
    DigitPrefixOf(d, rest);
  }

  /** Reading a numeral back, whatever non-digit text follows it, gives its value,
      or the largest 32-bit value when it does not fit. */
  lemma ExtractIntDecimal(n: nat, rest: string)
    requires |rest| == 0 || !IsDigit(rest[0])
    ensures ExtractInt(Decimal(n) + rest) == Some(if n <= IntMax then n else IntMax)
  {
    ExtractIntDigits(Decimal(n), rest);
    DecimalValueOfDecimal(n);
  }

  /** The same for a negative numeral, down to the smallest 32-bit value. */
  lemma ExtractIntNegative(n: nat, rest: string)
    requires n <= -IntMin
    requires |rest| == 0 || !IsDigit(rest[0])
    ensures ExtractInt("-" + Decimal(n) + rest) == Some(-(n as int))
  {
    var d := Decimal(n);
    ExtractIntSignedDigits(d, rest);
    DecimalValueOfDecimal(n);
    assert DigitsValue(d, true) == Clamp(-(n as int));
  }

  /** The name has a `_`, and something other than white space after the last one, so
      that a block ID can be read from it. */
  predicate HasBlockId(name: string) {
    match LastIndexOf(name, '_')
    case None => false
    case Some(loc) => !IsBlank(name[loc + 1..])
  }

  /** The fault for a name `HasBlockId` rejects: the parse error of lines 112 and 136
      when it has no `_`, otherwise the read that leaves the ID unset. */
  function NameFault(name: string): Fault {
    if '_' in name then UnreadBlockId(name) else InvalidBlockName(name)
  }

  /** A fault `BlockId` reports, for the name it carries. */
  predicate IsNameFault(f: Fault) {
    (f.InvalidBlockName? || f.UnreadBlockId?) && f == NameFault(f.name)
  }

  /** Lines 111-115 and 135-139: the block ID is read from the text after the last
      `_` of the name; a name without `_` is a parse error, and a name with only white
      space after its last `_` leaves the ID unread. */
  function BlockId(name: string): (r: Result<int>)
    ensures r.Err? <==> !HasBlockId(name)
    ensures r.Err? ==> r.fault == NameFault(name)
    ensures r.Ok? ==> IntMin <= r.value <= IntMax
  {
    match LastIndexOf(name, '_')
    case None => Err(InvalidBlockName(name))
    case Some(loc) =>
      match ExtractInt(name[loc + 1..])
      case None => Err(UnreadBlockId(name))
      case Some(id) => Ok(id)
  }

  /** A name `<prefix>_<n>` has block ID n, whatever the prefix holds. */
  lemma BlockIdOfSuffix(prefix: string, n: nat)
    requires n <= IntMax
    ensures BlockId(prefix + "_" + Decimal(n)) == Ok(n)
  {
    var d := Decimal(n);
    LastIndexOfSeparator(prefix, '_', d);
    assert (prefix + "_" + d)[|prefix| + 1..] == d;
    ExtractIntDecimal(n, []);
    assert d + [] == d;
  }

  /** A non-empty suffix without digits, as in `block_x`, reads as block ID 0. */
  lemma BlockIdWithoutDigits(prefix: string, suffix: string)
    requires |suffix| > 0 && '_' !in suffix
    requires forall i :: 0 <= i < |suffix| ==> !IsDigit(suffix[i]) && suffix[i] != '-' && suffix[i] != '+'
    requires forall i :: 0 <= i < |suffix| ==> !IsSpace(suffix[i])
    ensures BlockId(prefix + "_" + suffix) == Ok(0)
  {
    LastIndexOfSeparator(prefix, '_', suffix);
    assert (prefix + "_" + suffix)[|prefix| + 1..] == suffix;
    SkipSpaceAtNonSpace(suffix);
    assert !IsDigit(suffix[0]) && suffix[0] != '-' && suffix[0] != '+';
    assert DigitPrefix(suffix) == [];
    assert ExtractInt(suffix) == Some(0);
  }

  /** A name ending in `_`, or in `_` and white space, as in `block_`, has no block ID
      to read. */
  lemma BlockIdBlankSuffix(prefix: string, blank: string)
    requires IsBlank(blank)
    ensures BlockId(prefix + "_" + blank) == Err(UnreadBlockId(prefix + "_" + blank))
  {
    assert '_' !in blank by {
      forall i | 0 <= i < |blank| ensures blank[i] != '_' {
        assert IsSpace(blank[i]);
      }
    }
    LastIndexOfSeparator(prefix, '_', blank);
    assert (prefix + "_" + blank)[|prefix| + 1..] == blank;
  }
}

=== FILE: bond_migration.dfy ===
/** Moving the bond topology into a new decomposition: per-point bond counts, the
    compacted rebalanced bond map, the decoding of the current bond table back to
    global IDs, the bonded neighbours of a point, and the off-processor IDs the bonds
    require. */
module BondMigration {
  import opened Failures
  import opened Sequences
  import opened OrderedSets
  import opened IndexMaps
  import opened NeighborhoodTables

  /** Number of bonds of global ID `g` according to bond map `m`: the size of its
      element, or 0 when `m` has no element for `g`. */
  function BondCount(m: BlockMap, g: int): nat
    requires m.Valid()
  {
    var k := Lid(m.gids, g);
    if k == -1 then 0 else m.sizes[k]
  }

  /** The bond count of owned point i as the source computes it: the size is read at
      the owned slot i, although the bond map's local ID of the point was just looked
      up. None when slot i is past the end of the bond map's element list. */
  function BondCountAsWritten(owned: seq<int>, m: BlockMap, i: int): Option<nat>
    requires m.Valid() && 0 <= i < |owned|
  {
    if Lid(m.gids, owned[i]) == -1 then Some(0)
    else if i < |m.sizes| then Some(m.sizes[i])
    else None
  }

  /** Owned points 1, 2, 3, 4 where point 2 has no bonds: the bond map a previous
      rebalance built holds elements for 1, 3 and 4 only. Point 3, at owned slot 2, is
      given the size of element 2, which is point 4's, and point 4, at owned slot 3,
      is read past the end of the three-element size list. */
  lemma BondCountAsWrittenMisreads()
    ensures var owned := [1, 2, 3, 4];
            var m := Compact(owned, [4, 0, 5, 6]);
            && m == BlockMap([1, 3, 4], [4, 5, 6])
            && BondCountAsWritten(owned, m, 2) == Some(6) && BondCount(m, 3) == 5
            && BondCountAsWritten(owned, m, 3) == None && BondCount(m, 4) == 6
  {
    var owned := [1, 2, 3, 4];
    var m := Compact(owned, [4, 0, 5, 6]);
    assert owned[1..] == [2, 3, 4] && owned[2..] == [3, 4] && owned[3..] == [4];
    assert m == BlockMap([1, 3, 4], [4, 5, 6]);
    assert Lid(m.gids, 3) == 1;
    assert Lid(m.gids, 4) == 2;
  }

  /** The vector of bond counts on the current owned map, read at the bond map's
      local ID of each point (the corrected form of line 455, see `BondCountAsWritten`);
      points without an element keep the fresh vector's 0. */
  function NumberOfBonds(owned: seq<int>, m: BlockMap): (r: seq<int>)
    requires m.Valid()
    ensures |r| == |owned|
  {
    seq(|owned|, i requires 0 <= i < |owned| => BondCount(m, owned[i]))
  }

  /** The rebalanced bond map: one element per owned point with a positive count, in
      owned order, sized by that count. */
  function Compact(owned: seq<int>, counts: seq<int>): (m: BlockMap)
    requires |owned| == |counts|
    ensures m.Valid()
    ensures |m.gids| <= |owned|
    ensures forall k :: 0 <= k < |m.sizes| ==> m.sizes[k] > 0
    ensures forall g :: g in m.gids ==> g in owned
  {
    if |owned| == 0 then BlockMap([], [])
    else
      var rest := Compact(owned[1..], counts[1..]);
      if counts[0] > 0 then BlockMap([owned[0]] + rest.gids, [counts[0]] + rest.sizes)
      else rest
  }

  /** Bond map `m` is what compaction over `owned` makes of the counts `m` itself implies. */
  predicate CompactOver(m: BlockMap, owned: seq<int>) {
    m.Valid() && m == Compact(owned, NumberOfBonds(owned, m))
  }

  /** The compacted map holds exactly the owned points with a positive count. */
  lemma {:induction false} CompactMembers(owned: seq<int>, counts: seq<int>, g: int)
    requires |owned| == |counts|
    ensures g in Compact(owned, counts).gids <==>
              exists i :: 0 <= i < |owned| && owned[i] == g && counts[i] > 0
  {
    if |owned| > 0 {
      CompactMembers(owned[1..], counts[1..], g);
      if g in Compact(owned[1..], counts[1..]).gids {
        var i :| 0 <= i < |owned| - 1 && owned[1..][i] == g && counts[1..][i] > 0;
        assert owned[i + 1] == g && counts[i + 1] > 0;
      }
      if exists i :: 0 <= i < |owned| && owned[i] == g && counts[i] > 0 {
        var i :| 0 <= i < |owned| && owned[i] == g && counts[i] > 0;
        if i > 0 {
          assert owned[1..][i - 1] == g && counts[1..][i - 1] > 0;
        }
      }
    }
  }

  /** Each owned point's element in the compacted map has the point's count as size,
      and a point with no positive count has no element. */
  lemma {:induction false} CompactCount(owned: seq<int>, counts: seq<int>, i: int)
    requires |owned| == |counts| && Distinct(owned) && 0 <= i < |owned|
    ensures BondCount(Compact(owned, counts), owned[i]) == if counts[i] > 0 then counts[i] else 0
  {
    var m := Compact(owned, counts);
    var rest := Compact(owned[1..], counts[1..]);
    if i == 0 {
      if counts[0] <= 0 {
        CompactMembers(owned[1..], counts[1..], owned[0]);
        assert owned[0] !in rest.gids;
      }
    } else {
      CompactCount(owned[1..], counts[1..], i - 1);
      assert owned[1..][i - 1] == owned[i];
      if counts[0] > 0 {
        assert owned[0] != owned[i];
        BondCountPrepend(rest, owned[0], counts[0], owned[i]);
      }
    }
  }

  /** Prepending an element for another global ID leaves a point's bond count alone. */
  lemma BondCountPrepend(m: BlockMap, g: int, size: nat, h: int)
    requires m.Valid() && g != h
    ensures BondCount(BlockMap([g] + m.gids, [size] + m.sizes), h) == BondCount(m, h)
  {
    assert ([g] + m.gids)[1..] == m.gids;
  }

  /** The compacted map keeps the owned order. */
  lemma {:induction false} CompactKeepsOrder(owned: seq<int>, counts: seq<int>)
    requires |owned| == |counts|
    ensures IsSubsequence(Compact(owned, counts).gids, owned)
  {
    if |owned| > 0 {
      CompactKeepsOrder(owned[1..], counts[1..]);
      var rest := Compact(owned[1..], counts[1..]).gids;
      assert owned == [owned[0]] + owned[1..];
      if counts[0] <= 0 {
        SubsequencePrepend(rest, owned[1..], owned[0]);
      }
    }
  }

  /** Compacting an owned map without repetitions gives a bond map without them. */
  lemma {:induction false} CompactDistinct(owned: seq<int>, counts: seq<int>)
    requires |owned| == |counts| && Distinct(owned)
    ensures Distinct(Compact(owned, counts).gids)
  {
    if |owned| > 0 {
      CompactDistinct(owned[1..], counts[1..]);
      var rest := Compact(owned[1..], counts[1..]).gids;
      if counts[0] > 0 {
        var gids := [owned[0]] + rest;
        forall i, j | 0 <= i < j < |gids|
          ensures gids[i] != gids[j]
        {
          if i == 0 {
            assert gids[j] == rest[j - 1];
            assert gids[j] in owned[1..];
          } else {
            assert gids[i] == rest[i - 1] && gids[j] == rest[j - 1];
          }
        }
      }
    }
  }

  /** One step of the compaction, taken at owned slot i. */
  lemma CompactStep(owned: seq<int>, counts: seq<int>, i: int)
    requires |owned| == |counts| && 0 <= i < |owned|
    ensures var rest := Compact(owned[i + 1..], counts[i + 1..]);
            Compact(owned[i..], counts[i..]) ==
              if counts[i] > 0 then BlockMap([owned[i]] + rest.gids, [counts[i]] + rest.sizes)
              else rest
  {
    assert owned[i..][1..] == owned[i + 1..] && counts[i..][1..] == counts[i + 1..];
  }

  /** Lines 462-479: the rebalanced bond map is built by walking the owned map once,
      writing point i's entry at slot `i - numPointsWithZeroNeighbors`. */
  method CreateRebalancedBondMap(owned: seq<int>, counts: seq<int>)
    returns (m: BlockMap, numPointsWithZeroNeighbors: nat)
    requires |owned| == |counts|
    ensures m == Compact(owned, counts)
    ensures |m.gids| + numPointsWithZeroNeighbors == |owned|
  {
    var myGlobalElements: seq<int> := [];
    var elementSizeList: seq<nat> := [];
    numPointsWithZeroNeighbors := 0;
    var i := 0;
    while i < |owned|
      invariant 0 <= i <= |owned|
      invariant |myGlobalElements| == |elementSizeList| == i - numPointsWithZeroNeighbors
      invariant var rest := Compact(owned[i..], counts[i..]);
                BlockMap(myGlobalElements + rest.gids, elementSizeList + rest.sizes)
                == Compact(owned, counts)
    {
      CompactStep(owned, counts, i);
      ghost var rest := Compact(owned[i + 1..], counts[i + 1..]);
      if counts[i] > 0 {
        assert myGlobalElements + [owned[i]] + rest.gids == myGlobalElements + ([owned[i]] + rest.gids);
        assert elementSizeList + [counts[i]] + rest.sizes == elementSizeList + ([counts[i]] + rest.sizes);
        myGlobalElements := myGlobalElements + [owned[i]];
        elementSizeList := elementSizeList + [counts[i]];
      } else {
        numPointsWithZeroNeighbors := numPointsWithZeroNeighbors + 1;
      }
      i := i + 1;
    }
    assert owned[i..] == [] && counts[i..] == [];
    m := BlockMap(myGlobalElements, elementSizeList);
  }

  /** Counts taken from a compacted bond map and compacted again over the same owned
      map reproduce the bond map: migrating onto an unchanged decomposition changes
      nothing. */
  lemma CountsRoundTrip(owned: seq<int>, counts: seq<int>)
    requires |owned| == |counts| && Distinct(owned)
    ensures CompactOver(Compact(owned, counts), owned)
  {
    var m := Compact(owned, counts);
    var derived := NumberOfBonds(owned, m);
    forall i | 0 <= i < |owned|
      ensures (derived[i] > 0) == (counts[i] > 0) && (counts[i] > 0 ==> derived[i] == counts[i])
    {
      CompactCount(owned, counts, i);
    }
    CompactAgrees(owned, counts, derived);
  }

  /** Compaction only looks at which counts are positive and at their values. */
  lemma {:induction false} CompactAgrees(owned: seq<int>, a: seq<int>, b: seq<int>)
    requires |owned| == |a| == |b|
    requires forall i :: 0 <= i < |a| ==> (a[i] > 0) == (b[i] > 0) && (a[i] > 0 ==> a[i] == b[i])
    ensures Compact(owned, a) == Compact(owned, b)
  {
    if |owned| > 0 {
      CompactAgrees(owned[1..], a[1..], b[1..]);
    }
  }

  /** The global IDs point `g` is bonded to: its element of the neighbour vector, or
      none when the bond map has no element for it. */
  function BondedNeighbors(m: BlockMap, nbrs: seq<int>, g: int): (r: seq<int>)
    requires m.Valid() && |nbrs| == m.NumPoints()
    ensures |r| == BondCount(m, g)
    ensures g in m.gids ==>
              var k := Lid(m.gids, g);
              m.FirstPoint(k) + m.sizes[k] <= |nbrs| &&
              r == nbrs[m.FirstPoint(k) .. m.FirstPoint(k) + m.sizes[k]]
  {
    var k := Lid(m.gids, g);
    if k == -1 then []
    else
      ElementValuesAtFirstPoint(m.sizes, nbrs, k);
      ElementValues(m, nbrs, k)
  }

  /** The global IDs of a list of overlap local IDs. */
  function GlobalIds(lids: seq<int>, overlap: seq<int>): (r: seq<int>)
    ensures |r| == |lids|
  {
    seq(|lids|, j requires 0 <= j < |lids| => Gid(overlap, lids[j]))
  }

  /** Lines 553-562: the current bond table turned back into the flat list of
      neighbour global IDs, one segment per owned point. */
  function NeighborGlobalIds(table: NeighborhoodData, overlap: seq<int>): Result<seq<int>> {
    var segs :- Decode(table.list, |table.ownedIds|);
    Ok(Flatten(seq(|segs|, i requires 0 <= i < |segs| => GlobalIds(segs[i], overlap))))
  }

  /** Lines 314-319: the migrated bond neighbours this rank does not own, ascending. */
  function BondGhosts(owned: seq<int>, nbrs: seq<int>): (r: seq<int>)
    ensures Increasing(r)
    ensures forall g :: g in r <==> g in nbrs && g !in owned
  {
    InsertMissing([], nbrs, owned)
  }

  /** The bonded neighbours of every owned point, in owned order, make up the whole
      neighbour vector of a bond map compacted over the owned map. */
  lemma {:induction false} BondedNeighborsCover(owned: seq<int>, m: BlockMap, nbrs: seq<int>)
    requires Distinct(owned) && CompactOver(m, owned) && |nbrs| == m.NumPoints()
    ensures Flatten(BondedLists(owned, m, nbrs)) == nbrs
  {
    var counts := NumberOfBonds(owned, m);
    CoverByCounts(owned, counts, nbrs);
  }

  function BondedLists(owned: seq<int>, m: BlockMap, nbrs: seq<int>): (r: seq<seq<int>>)
    requires m.Valid() && |nbrs| == m.NumPoints()
    ensures |r| == |owned|
    ensures forall i :: 0 <= i < |owned| ==> r[i] == BondedNeighbors(m, nbrs, owned[i])
  {
    seq(|owned|, i requires 0 <= i < |owned| => BondedNeighbors(m, nbrs, owned[i]))
  }

  /** Dropping the first owned point leaves the bonded lists of the others unchanged,
      the bond map and the neighbour vector losing that point's element. */
  lemma ShiftBondedLists(owned: seq<int>, counts: seq<int>, nbrs: seq<int>)
    requires |owned| == |counts| && Distinct(owned) && |owned| > 0
    requires |nbrs| == Compact(owned, counts).NumPoints()
    ensures var m := Compact(owned, counts);
            var rest := Compact(owned[1..], counts[1..]);
            var skip := if counts[0] > 0 then counts[0] else 0;
            skip <= |nbrs| && |nbrs[skip..]| == rest.NumPoints() &&
            BondedLists(owned, m, nbrs)[1..] == BondedLists(owned[1..], rest, nbrs[skip..])
  {
    var m := Compact(owned, counts);
    var rest := Compact(owned[1..], counts[1..]);
    var skip := if counts[0] > 0 then counts[0] else 0;
    var tail := nbrs[skip..];
    assert |tail| == rest.NumPoints();
    forall i | 1 <= i < |owned|
      ensures BondedNeighbors(m, nbrs, owned[i]) == BondedNeighbors(rest, tail, owned[i])
    {
      ShiftBondedOne(owned, counts, nbrs, i);
    }
    assert forall j :: 0 <= j < |owned| - 1 ==> owned[1..][j] == owned[j + 1];
  }

  lemma ShiftBondedOne(owned: seq<int>, counts: seq<int>, nbrs: seq<int>, i: int)
    requires |owned| == |counts| && Distinct(owned) && 0 < i < |owned|
    requires |nbrs| == Compact(owned, counts).NumPoints()
    ensures var skip := if counts[0] > 0 then counts[0] else 0;
            var rest := Compact(owned[1..], counts[1..]);
            skip <= |nbrs| && |nbrs[skip..]| == rest.NumPoints() &&
            BondedNeighbors(Compact(owned, counts), nbrs, owned[i]) == BondedNeighbors(rest, nbrs[skip..], owned[i])
  {
    var m := Compact(owned, counts);
    var rest := Compact(owned[1..], counts[1..]);
    var g := owned[i];
    assert g != owned[0];
    if counts[0] > 0 {
      var tail := nbrs[counts[0]..];
      var k := Lid(rest.gids, g);
      if k != -1 {
        assert m.gids == [owned[0]] + rest.gids;
        assert Lid(m.gids, g) == k + 1;
        assert Split(m.sizes, nbrs)[1..] == Split(rest.sizes, tail);
      } else {
        assert g !in m.gids;
      }
    }
  }

  lemma {:induction false} CoverByCounts(owned: seq<int>, counts: seq<int>, nbrs: seq<int>)
    requires |owned| == |counts| && Distinct(owned)
    requires |nbrs| == Compact(owned, counts).NumPoints()
    ensures Flatten(BondedLists(owned, Compact(owned, counts), nbrs)) == nbrs
  {
    var m := Compact(owned, counts);
    if |owned| > 0 {
      var rest := Compact(owned[1..], counts[1..]);
      var skip := if counts[0] > 0 then counts[0] else 0;
      var lists := BondedLists(owned, m, nbrs);
      ShiftBondedLists(owned, counts, nbrs);
      CoverByCounts(owned[1..], counts[1..], nbrs[skip..]);
      if counts[0] > 0 {
        assert lists[0] == nbrs[..counts[0]];
      } else {
        CompactMembers(owned[1..], counts[1..], owned[0]);
        assert owned[0] !in m.gids;
        assert lists[0] == [];
      }
      assert nbrs == nbrs[..skip] + nbrs[skip..];
    }
  }
}

=== FILE: configuration.dfy ===
/** The contact configuration: the required search parameters, the contact blocks
    named in the "Blocks" section of the input deck (lines 58-145), and the contact
    model parameters each block receives in `initialize` (lines 154-191). */
module Configuration {
  import opened Failures
  import opened Sequences
  import opened BlockNames

  /** A contact block: its name, the ID read from the name, and the parameter list it
      copies, identified by the name of the "Blocks" entry that holds it. */
  datatype ContactBlock = ContactBlock(name: string, id: int, params: string)

  /** One entry of the "Blocks" section: its name and its "Block Names" string, if set. */
  datatype BlockEntry = BlockEntry(listName: string, blockNames: Option<string>)

  /** A value of a parameter list; only the keys matter to the manager. */
  datatype ParamValue = RealParam(x: real) | IntParam(n: int) | TextParam(s: string)

  /** One entry of the contact "Models" sublist. */
  datatype ModelEntry = ModelEntry(name: string, params: map<string, ParamValue>)

  /** The contact parameters the manager reads. */
  datatype ContactParams = ContactParams(searchRadius: Option<real>, searchFrequency: Option<int>,
                                         models: Option<seq<ModelEntry>>)

  /** What the constructor establishes. */
  datatype ContactConfig = ContactConfig(searchRadius: real, searchFrequency: int, blocks: seq<ContactBlock>)

  /** A contact block paired with the contact model parameters `initialize` hands to
      the model factory for it. */
  datatype BlockModel = BlockModel(block: ContactBlock, params: map<string, ParamValue>)

  /** "Default" and "default" name the default parameter list, not a block. */
  predicate IsDefaultName(name: string) {
    name == "Default" || name == "default"
  }

  function Names(blocks: seq<ContactBlock>): (r: seq<string>)
    ensures |r| == |blocks| && forall i :: 0 <= i < |blocks| ==> r[i] == blocks[i].name
  {
    seq(|blocks|, i requires 0 <= i < |blocks| => blocks[i].name)
  }

  lemma NamesAppend(a: seq<ContactBlock>, b: seq<ContactBlock>)
    ensures Names(a + b) == Names(a) + Names(b)
  {
  }

  /** The names that are not the default marker, in order. */
  function NonDefault(names: seq<string>): (r: seq<string>)
    ensures forall x :: x in r <==> x in names && !IsDefaultName(x)
  {
    if |names| == 0 then []
    else if IsDefaultName(names[0]) then NonDefault(names[1..])
    else [names[0]] + NonDefault(names[1..])
  }

  lemma {:induction false} NonDefaultAppend(a: seq<string>, b: seq<string>)
    ensures NonDefault(a + b) == NonDefault(a) + NonDefault(b)
  {
    if |a| == 0 {
      assert a + b == b;
    } else {
      assert (a + b)[1..] == a[1..] + b;
      NonDefaultAppend(a[1..], b);
    }
  }

  /** Every block carries the ID its own name gives and none is named after the default. */
  predicate WellNamed(blocks: seq<ContactBlock>) {
    forall i :: 0 <= i < |blocks| ==> !IsDefaultName(blocks[i].name) && BlockId(blocks[i].name) == Ok(blocks[i].id)
  }

  function Required<T>(v: Option<T>, key: string): (r: Result<T>)
    ensures r.Ok? <==> v.Some?
    ensures r.Ok? ==> r.value == v.value
    ensures r.Err? ==> r.fault == MissingParameter(key)
  {
    match v
    case None => Err(MissingParameter(key))
    case Some(x) => Ok(x)
  }

  /** The words of an entry's "Block Names"; an entry without it has none. */
  function Words(e: BlockEntry): seq<string> {
    match e.blockNames
    case None => []
    case Some(text) => Tokenize(text)
  }

  function AllWords(entries: seq<BlockEntry>): seq<string> {
    if |entries| == 0 then [] else Words(entries[0]) + AllWords(entries[1..])
  }

  /** Lines 103-119 for one entry: a block per word in order, skipping the default
      marker, each copying the entry's parameter list. */
  function EntryBlocks(listName: string, words: seq<string>): Result<seq<ContactBlock>> {
    if |words| == 0 then Ok([])
    else if IsDefaultName(words[0]) then EntryBlocks(listName, words[1..])
    else
      var id :- BlockId(words[0]);
      var rest :- EntryBlocks(listName, words[1..]);
      Ok([ContactBlock(words[0], id, listName)] + rest)
  }

  /** An entry fails exactly at a word other than the default marker that has no
      block ID: no `_`, or only white space after its last `_`. */
  lemma {:induction false} EntryBlocksFails(listName: string, words: seq<string>)
    ensures var r := EntryBlocks(listName, words);
            && (r.Ok? <==> forall i :: 0 <= i < |words| ==> IsDefaultName(words[i]) || HasBlockId(words[i]))
            && (r.Err? ==> IsNameFault(r.fault) && r.fault.name in words &&
                           !IsDefaultName(r.fault.name) && !HasBlockId(r.fault.name))
  {
    if |words| > 0 {
      var tail := words[1..];
      EntryBlocksFails(listName, tail);
      ReadableCons(words);
      var r, t := EntryBlocks(listName, words), EntryBlocks(listName, tail);
      if IsDefaultName(words[0]) {
        assert r == t;
      } else if !HasBlockId(words[0]) {
        assert r == Err(NameFault(words[0]));
      } else if t.Err? {
        assert r == Err(t.fault);
        assert t.fault.name in words;
      } else {
        assert r.Ok?;
      }
    }
  }

  /** Every word is readable exactly when the first one is and every later one is. */
  lemma ReadableCons(words: seq<string>)
    requires |words| > 0
    ensures (forall i :: 0 <= i < |words| ==> IsDefaultName(words[i]) || HasBlockId(words[i])) <==>
            (IsDefaultName(words[0]) || HasBlockId(words[0])) &&
            forall i :: 0 <= i < |words[1..]| ==> IsDefaultName(words[1..][i]) || HasBlockId(words[1..][i])
  {
    assert forall i :: 1 <= i < |words| ==> words[1..][i - 1] == words[i];
  }

  /** An entry's blocks are its words other than the default marker, in order, each
      with the ID its name gives and the entry's parameter list. */
  lemma EntryBlocksNames(listName: string, words: seq<string>)
    requires EntryBlocks(listName, words).Ok?
    ensures var blocks := EntryBlocks(listName, words).value;
            && Names(blocks) == NonDefault(words) && WellNamed(blocks)
            && forall i :: 0 <= i < |blocks| ==> blocks[i].params == listName
  {
    EntryBlocksOrder(listName, words);
    EntryBlocksShape(listName, words);
  }

  lemma {:induction false} EntryBlocksOrder(listName: string, words: seq<string>)
    requires EntryBlocks(listName, words).Ok?
    ensures Names(EntryBlocks(listName, words).value) == NonDefault(words)
  {
    if |words| > 0 {
      var blocks := EntryBlocks(listName, words).value;
      var rest := EntryBlocks(listName, words[1..]).value;
      EntryBlocksOrder(listName, words[1..]);
      if IsDefaultName(words[0]) {
        assert blocks == rest;
        assert NonDefault(words) == NonDefault(words[1..]);
      } else {
        assert blocks == [blocks[0]] + rest && blocks[0].name == words[0];
        NamesAppend([blocks[0]], rest);
        assert NonDefault(words) == [words[0]] + NonDefault(words[1..]);
      }
    }
  }

  lemma EntryBlocksShape(listName: string, words: seq<string>)
    requires EntryBlocks(listName, words).Ok?
    ensures var blocks := EntryBlocks(listName, words).value;
            && WellNamed(blocks)
            && forall i :: 0 <= i < |blocks| ==> blocks[i].params == listName
  {
    EntryBlocksWellNamed(listName, words);
    EntryBlocksParams(listName, words);
  }

  lemma {:induction false} EntryBlocksWellNamed(listName: string, words: seq<string>)
    requires EntryBlocks(listName, words).Ok?
    ensures WellNamed(EntryBlocks(listName, words).value)
  {
    if |words| > 0 {
      EntryBlocksWellNamed(listName, words[1..]);
      if !IsDefaultName(words[0]) {
        var rest := EntryBlocks(listName, words[1..]).value;
        var b := ContactBlock(words[0], BlockId(words[0]).value, listName);
        assert EntryBlocks(listName, words).value == [b] + rest;
        WellNamedCons(b, rest);
      }
    }
  }

  lemma {:induction false} EntryBlocksParams(listName: string, words: seq<string>)
    requires EntryBlocks(listName, words).Ok?
    ensures var blocks := EntryBlocks(listName, words).value;
            forall i :: 0 <= i < |blocks| ==> blocks[i].params == listName
  {
    if |words| > 0 {
      EntryBlocksParams(listName, words[1..]);
      if !IsDefaultName(words[0]) {
        var rest := EntryBlocks(listName, words[1..]).value;
        var b := ContactBlock(words[0], BlockId(words[0]).value, listName);
        var blocks := [b] + rest;
        assert EntryBlocks(listName, words).value == blocks;
        forall i | 0 < i < |blocks|
          ensures blocks[i].params == listName
        {
          assert blocks[i] == rest[i - 1];
        }
      }
    }
  }

  /** A well-named block in front of well-named blocks keeps them well named. */
  lemma WellNamedCons(b: ContactBlock, rest: seq<ContactBlock>)
    requires !IsDefaultName(b.name) && BlockId(b.name) == Ok(b.id) && WellNamed(rest)
    ensures WellNamed([b] + rest)
  {
    var blocks := [b] + rest;
    forall i | 0 < i < |blocks|
      ensures !IsDefaultName(blocks[i].name) && BlockId(blocks[i].name) == Ok(blocks[i].id)
    {
      assert blocks[i] == rest[i - 1];
    }
  }

  /** Lines 92-121: the explicitly named blocks of all entries, entry by entry. */
  function ExplicitBlocks(entries: seq<BlockEntry>): Result<seq<ContactBlock>> {
    if |entries| == 0 then Ok([])
    else
      var text :- Required(entries[0].blockNames, "Block Names");
      var first :- EntryBlocks(entries[0].listName, Tokenize(text));
      var rest :- ExplicitBlocks(entries[1..]);
      Ok(first + rest)
  }

  /** The block section fails exactly when an entry lacks "Block Names" or some
      listed word other than the default marker has no block ID. */
  lemma {:induction false} ExplicitBlocksFails(entries: seq<BlockEntry>)
    ensures var r := ExplicitBlocks(entries);
            && (r.Ok? <==> (forall i :: 0 <= i < |entries| ==> entries[i].blockNames.Some?) &&
                           (forall w :: w in AllWords(entries) ==> IsDefaultName(w) || HasBlockId(w)))
            && (r.Err? ==> r.fault == MissingParameter("Block Names") ||
                           (IsNameFault(r.fault) && r.fault.name in AllWords(entries) &&
                            !IsDefaultName(r.fault.name) && !HasBlockId(r.fault.name)))
  {
    ExplicitBlocksOk(entries);
    ExplicitBlocksFault(entries);
  }

  lemma {:induction false} ExplicitBlocksOk(entries: seq<BlockEntry>)
    ensures ExplicitBlocks(entries).Ok? <==>
              (forall i :: 0 <= i < |entries| ==> entries[i].blockNames.Some?) &&
              (forall w :: w in AllWords(entries) ==> IsDefaultName(w) || HasBlockId(w))
  {
    if |entries| > 0 {
      var tail := entries[1..];
      ExplicitBlocksOk(tail);
      assert forall i :: 1 <= i < |entries| ==> tail[i - 1] == entries[i];
      assert AllWords(entries) == Words(entries[0]) + AllWords(tail);
      if entries[0].blockNames.Some? {
        var words := Tokenize(entries[0].blockNames.value);
        EntryBlocksFails(entries[0].listName, words);
        if !(forall w :: w in words ==> IsDefaultName(w) || HasBlockId(w)) {
          var w :| w in words && !IsDefaultName(w) && !HasBlockId(w);
          assert w in AllWords(entries);
        }
      }
    }
  }

  lemma {:induction false} ExplicitBlocksFault(entries: seq<BlockEntry>)
    ensures var r := ExplicitBlocks(entries);
            r.Err? ==> r.fault == MissingParameter("Block Names") ||
                       (IsNameFault(r.fault) && r.fault.name in AllWords(entries) &&
                        !IsDefaultName(r.fault.name) && !HasBlockId(r.fault.name))
  {
    if |entries| > 0 && entries[0].blockNames.Some? {
      var tail := entries[1..];
      ExplicitBlocksFault(tail);
      assert AllWords(entries) == Words(entries[0]) + AllWords(tail);
      var words := Tokenize(entries[0].blockNames.value);
      EntryBlocksFails(entries[0].listName, words);
    }
  }

  /** The explicit blocks are the non-default words of all entries, in deck order. */
  lemma {:induction false} ExplicitBlocksNames(entries: seq<BlockEntry>)
    requires ExplicitBlocks(entries).Ok?
    ensures Names(ExplicitBlocks(entries).value) == NonDefault(AllWords(entries))
    ensures WellNamed(ExplicitBlocks(entries).value)
  {
    if |entries| > 0 {
      var words := Tokenize(entries[0].blockNames.value);
      var first := EntryBlocks(entries[0].listName, words).value;
      var rest := ExplicitBlocks(entries[1..]).value;
      assert ExplicitBlocks(entries).value == first + rest;
      EntryBlocksNames(entries[0].listName, words);
      ExplicitBlocksNames(entries[1..]);
      NamesAppend(first, rest);
      NonDefaultAppend(words, AllWords(entries[1..]));
    }
  }

  /** The entry lists the default marker among its words. */
  predicate HasDefault(e: BlockEntry) {
    "Default" in Words(e) || "default" in Words(e)
  }

  /** The last index holding `true`, or -1 when none does. */
  function LastTrue(flags: seq<bool>): (r: int)
    ensures -1 <= r < |flags|
    ensures r == -1 <==> forall i :: 0 <= i < |flags| ==> !flags[i]
    ensures r >= 0 ==> flags[r] && forall j :: r < j < |flags| ==> !flags[j]
  {
    if |flags| == 0 then -1
    else if flags[|flags| - 1] then |flags| - 1
    else LastTrue(flags[..|flags| - 1])
  }

  /** The index of the last entry that names the default, or -1 when none does. */
  function LastDefault(entries: seq<BlockEntry>): (r: int)
    ensures -1 <= r < |entries|
    ensures r == -1 <==> forall i :: 0 <= i < |entries| ==> !HasDefault(entries[i])
    ensures r >= 0 ==> HasDefault(entries[r]) && forall j :: r < j < |entries| ==> !HasDefault(entries[j])
  {
    var flags := seq(|entries|, i requires 0 <= i < |entries| => HasDefault(entries[i]));
    assert forall i :: 0 <= i < |entries| ==> flags[i] == HasDefault(entries[i]);
    LastTrue(flags)
  }

  /** Line 106: each default marker overwrites the default parameter list, so the last
      entry that names the default supplies it. */
  function DefaultParams(entries: seq<BlockEntry>): Option<string> {
    var k := LastDefault(entries);
    if k == -1 then None else Some(entries[k].listName)
  }

  /** Lines 123-145: each discretization block not matched by name against the blocks
      so far, including those added before it, becomes a block with the default
      parameter list. */
  function AddDefaultBlocks(blocks: seq<ContactBlock>, disc: seq<string>, params: string)
    : Result<seq<ContactBlock>>
    decreases |disc|
  {
    if |disc| == 0 then Ok(blocks)
    else if disc[0] in Names(blocks) then AddDefaultBlocks(blocks, disc[1..], params)
    else
      var id :- BlockId(disc[0]);
      AddDefaultBlocks(blocks + [ContactBlock(disc[0], id, params)], disc[1..], params)
  }

  /** The default fill fails exactly at a discretization block without a block ID
      that is not among the blocks it started from: blocks it adds itself have one. */
  lemma AddDefaultBlocksFails(blocks: seq<ContactBlock>, disc: seq<string>, params: string)
    ensures var r := AddDefaultBlocks(blocks, disc, params);
            && (r.Ok? <==> forall i :: 0 <= i < |disc| ==> disc[i] in Names(blocks) || HasBlockId(disc[i]))
            && (r.Err? ==> IsNameFault(r.fault) && r.fault.name in disc &&
                           r.fault.name !in Names(blocks) && !HasBlockId(r.fault.name))
  {
    AddDefaultBlocksOk(blocks, disc, params);
    AddDefaultBlocksFault(blocks, disc, params);
  }

  lemma {:induction false} AddDefaultBlocksOk(blocks: seq<ContactBlock>, disc: seq<string>, params: string)
    ensures AddDefaultBlocks(blocks, disc, params).Ok? <==>
              forall i :: 0 <= i < |disc| ==> disc[i] in Names(blocks) || HasBlockId(disc[i])
    decreases |disc|
  {
    if |disc| > 0 {
      var tail := disc[1..];
      KnownOrReadableCons(Names(blocks), disc);
      if disc[0] in Names(blocks) {
        AddDefaultBlocksOk(blocks, tail, params);
      } else if HasBlockId(disc[0]) {
        var b := ContactBlock(disc[0], BlockId(disc[0]).value, params);
        var grown := blocks + [b];
        assert AddDefaultBlocks(blocks, disc, params) == AddDefaultBlocks(grown, tail, params);
        NamesAppend(blocks, [b]);
        assert Names([b]) == [disc[0]];
        assert Names(grown) == Names(blocks) + [disc[0]];
        AddDefaultBlocksOk(grown, tail, params);
        KnownOrReadableGrow(Names(blocks), disc[0], tail);
      }
    }
  }

  /** Every name is known or readable exactly when the first is and every later one is. */
  lemma KnownOrReadableCons(known: seq<string>, names: seq<string>)
    requires |names| > 0
    ensures (forall i :: 0 <= i < |names| ==> names[i] in known || HasBlockId(names[i])) <==>
            (names[0] in known || HasBlockId(names[0])) &&
            forall i :: 0 <= i < |names[1..]| ==> names[1..][i] in known || HasBlockId(names[1..][i])
  {
    assert forall i :: 1 <= i < |names| ==> names[1..][i - 1] == names[i];
  }

  /** Knowing one more readable name does not change which names are known or readable. */
  lemma KnownOrReadableGrow(known: seq<string>, x: string, names: seq<string>)
    requires HasBlockId(x)
    ensures (forall i :: 0 <= i < |names| ==> names[i] in known + [x] || HasBlockId(names[i])) <==>
            (forall i :: 0 <= i < |names| ==> names[i] in known || HasBlockId(names[i]))
  {
    forall i | 0 <= i < |names|
      ensures (names[i] in known + [x] || HasBlockId(names[i])) <==> (names[i] in known || HasBlockId(names[i]))
    {
      if names[i] == x {
        assert HasBlockId(names[i]);
      }
    }
  }

  lemma {:induction false} AddDefaultBlocksFault(blocks: seq<ContactBlock>, disc: seq<string>, params: string)
    ensures var r := AddDefaultBlocks(blocks, disc, params);
            r.Err? ==> IsNameFault(r.fault) && r.fault.name in disc &&
                       r.fault.name !in Names(blocks) && !HasBlockId(r.fault.name)
    decreases |disc|
  {
    if |disc| > 0 {
      var tail := disc[1..];
      if disc[0] in Names(blocks) {
        AddDefaultBlocksFault(blocks, tail, params);
      } else if HasBlockId(disc[0]) {
        var b := ContactBlock(disc[0], BlockId(disc[0]).value, params);
        var grown := blocks + [b];
        assert AddDefaultBlocks(blocks, disc, params) == AddDefaultBlocks(grown, tail, params);
        NamesAppend(blocks, [b]);
        assert Names([b]) == [disc[0]];
        assert Names(grown) == Names(blocks) + [disc[0]];
        AddDefaultBlocksFault(grown, tail, params);
      }
    }
  }

  /** The default fill only appends: the blocks it was given come first, unchanged. */
  lemma {:induction false} AddDefaultBlocksKeeps(blocks: seq<ContactBlock>, disc: seq<string>, params: string)
    requires AddDefaultBlocks(blocks, disc, params).Ok?
    ensures blocks <= AddDefaultBlocks(blocks, disc, params).value
    decreases |disc|
  {
    if |disc| > 0 {
      if disc[0] in Names(blocks) {
        AddDefaultBlocksKeeps(blocks, disc[1..], params);
      } else {
        var b := ContactBlock(disc[0], BlockId(disc[0]).value, params);
        AddDefaultBlocksKeeps(blocks + [b], disc[1..], params);
      }
    }
  }

  /** After the default fill every discretization block has a block of its name. */
  lemma {:induction false} AddDefaultBlocksCovers(blocks: seq<ContactBlock>, disc: seq<string>, params: string)
    requires AddDefaultBlocks(blocks, disc, params).Ok?
    ensures var r := AddDefaultBlocks(blocks, disc, params).value;
            forall i :: 0 <= i < |disc| ==> disc[i] in Names(r)
    decreases |disc|
  {
    if |disc| > 0 {
      var r := AddDefaultBlocks(blocks, disc, params).value;
      var grown := blocks;
      if disc[0] !in Names(blocks) {
        grown := blocks + [ContactBlock(disc[0], BlockId(disc[0]).value, params)];
      }
      assert r == AddDefaultBlocks(grown, disc[1..], params).value;
      AddDefaultBlocksCovers(grown, disc[1..], params);
      AddDefaultBlocksKeeps(grown, disc[1..], params);
      forall i | 0 <= i < |disc|
        ensures disc[i] in Names(r)
      {
        if i > 0 {
          assert disc[i] == disc[1..][i - 1];
        } else if disc[0] in Names(blocks) {
          var j :| 0 <= j < |blocks| && Names(blocks)[j] == disc[0];
          assert r[j] == blocks[j];
          assert Names(r)[j] == disc[0];
        } else {
          assert r[|blocks|] == grown[|blocks|];
          assert Names(r)[|blocks|] == disc[0];
        }
      }
    }
  }

  /** Each block the default fill adds is a discretization block missing from those
      it was given, with the default parameter list and the ID its name gives. */
  lemma {:induction false} AddDefaultBlocksAdds(blocks: seq<ContactBlock>, disc: seq<string>, params: string)
    requires AddDefaultBlocks(blocks, disc, params).Ok?
    ensures var r := AddDefaultBlocks(blocks, disc, params).value;
            forall k :: |blocks| <= k < |r| ==>
              r[k].name in disc && r[k].name !in Names(blocks) &&
              r[k].params == params && BlockId(r[k].name) == Ok(r[k].id)
    decreases |disc|
  {
    if |disc| > 0 {
      var r := AddDefaultBlocks(blocks, disc, params).value;
      if disc[0] in Names(blocks) {
        AddDefaultBlocksAdds(blocks, disc[1..], params);
      } else {
        var b := ContactBlock(disc[0], BlockId(disc[0]).value, params);
        var grown := blocks + [b];
        assert r == AddDefaultBlocks(grown, disc[1..], params).value;
        NamesAppend(blocks, [b]);
        assert Names([b]) == [disc[0]];
        AddDefaultBlocksAdds(grown, disc[1..], params);
        AddDefaultBlocksKeeps(grown, disc[1..], params);
        forall k | |blocks| <= k < |r|
          ensures r[k].name in disc && r[k].name !in Names(blocks)
          ensures r[k].params == params && BlockId(r[k].name) == Ok(r[k].id)
        {
          if k == |blocks| {
            assert r[k] == b;
          } else {
            assert r[k].name in disc[1..] && r[k].name !in Names(grown);
            assert r[k].params == params && BlockId(r[k].name) == Ok(r[k].id);
          }
        }
      }
    }
  }

  /** The default fill adds each missing name once. */
  lemma {:induction false} AddDefaultBlocksDistinct(blocks: seq<ContactBlock>, disc: seq<string>, params: string)
    requires AddDefaultBlocks(blocks, disc, params).Ok?
    ensures var r := AddDefaultBlocks(blocks, disc, params).value;
            forall j, k :: |blocks| <= j < k < |r| ==> r[j].name != r[k].name
    decreases |disc|
  {
    if |disc| > 0 && disc[0] !in Names(blocks) {
      var b := ContactBlock(disc[0], BlockId(disc[0]).value, params);
      var grown := blocks + [b];
      var r := AddDefaultBlocks(blocks, disc, params).value;
      assert r == AddDefaultBlocks(grown, disc[1..], params).value;
      AddDefaultBlocksDistinct(grown, disc[1..], params);
      AddDefaultBlocksAdds(grown, disc[1..], params);
      AddDefaultBlocksKeeps(grown, disc[1..], params);
      assert r[|blocks|] == b by {
        assert r[|blocks|] == grown[|blocks|];
      }
      assert disc[0] in Names(grown) by {
        NamesAppend(blocks, [b]);
        assert Names(grown)[|blocks|] == disc[0];
      }
      forall j, k | |blocks| <= j < k < |r|
        ensures r[j].name != r[k].name
      {
        if j == |blocks| {
          assert r[k].name !in Names(grown);
        } else {
          assert |grown| <= j;
        }
      }
    } else if |disc| > 0 {
      AddDefaultBlocksDistinct(blocks, disc[1..], params);
    }
  }

  /** The constructor (lines 58-145): the search radius and frequency are required,
      then the blocks are read, then the default fill runs if some entry names the
      default. */
  function Configure(params: ContactParams, blockSection: Option<seq<BlockEntry>>, disc: seq<string>)
    : (r: Result<ContactConfig>)
    ensures params.searchRadius.None? ==> r == Err(MissingParameter("Search Radius"))
    ensures params.searchRadius.Some? && params.searchFrequency.None? ==>
              r == Err(MissingParameter("Search Frequency"))
    ensures params.searchRadius.Some? && params.searchFrequency.Some? && blockSection.None? ==>
              r == Err(MissingParameter("Blocks"))
    ensures r.Ok? ==> r.value.searchRadius == params.searchRadius.value &&
                      r.value.searchFrequency == params.searchFrequency.value
  {
    var radius :- Required(params.searchRadius, "Search Radius");
    var frequency :- Required(params.searchFrequency, "Search Frequency");
    var entries :- Required(blockSection, "Blocks");
    var explicit :- ExplicitBlocks(entries);
    var blocks :- match DefaultParams(entries)
                  case None => Ok(explicit)
                  case Some(p) => AddDefaultBlocks(explicit, disc, p);
    Ok(ContactConfig(radius, frequency, blocks))
  }

  /** The blocks of a configuration: the explicit names in deck order, then, when some
      entry names the default, every discretization block not already present, all
      carrying the default parameter list; no block is named after the default and
      every block carries the ID its name gives. */
  lemma ConfigureBlocks(params: ContactParams, entries: seq<BlockEntry>, disc: seq<string>)
    requires Configure(params, Some(entries), disc).Ok?
    ensures var blocks := Configure(params, Some(entries), disc).value.blocks;
            var explicit := NonDefault(AllWords(entries));
            && WellNamed(blocks)
            && explicit <= Names(blocks)
            && (DefaultParams(entries).None? ==> Names(blocks) == explicit)
            && (DefaultParams(entries).Some? ==>
                  (forall i :: 0 <= i < |disc| ==> disc[i] in Names(blocks)) &&
                  (forall k :: |explicit| <= k < |blocks| ==>
                     blocks[k].name in disc && blocks[k].name !in explicit &&
                     blocks[k].params == DefaultParams(entries).value))
  {
    var explicit := ExplicitBlocks(entries).value;
    var blocks := Configure(params, Some(entries), disc).value.blocks;
    ExplicitBlocksNames(entries);
    if DefaultParams(entries).Some? {
      var p := DefaultParams(entries).value;
      assert blocks == AddDefaultBlocks(explicit, disc, p).value;
      AddDefaultBlocksKeeps(explicit, disc, p);
      AddDefaultBlocksCovers(explicit, disc, p);
      AddDefaultBlocksAdds(explicit, disc, p);
      assert Names(explicit) <= Names(blocks);
      forall k | |explicit| <= k < |blocks|
        ensures !IsDefaultName(blocks[k].name)
      {
        BlockIdNamesHaveSeparator(blocks[k].name);
      }
    } else {
      assert blocks == explicit;
    }
  }

  /** The default marker has no `_`, so it never parses as a block name. */
  lemma BlockIdNamesHaveSeparator(name: string)
    requires HasBlockId(name)
    ensures !IsDefaultName(name)
  {
  }

  /** Without a default marker a name gets a block exactly when some entry lists it,
      and with one every discretization name gets a block. */
  lemma ConfigureCoverage(params: ContactParams, entries: seq<BlockEntry>, disc: seq<string>, name: string)
    requires Configure(params, Some(entries), disc).Ok?
    ensures var blocks := Configure(params, Some(entries), disc).value.blocks;
            && (DefaultParams(entries).None? ==> (name in Names(blocks) <==> name in AllWords(entries) && !IsDefaultName(name)))
            && (DefaultParams(entries).Some? && name in disc ==> name in Names(blocks))
  {
    ConfigureBlocks(params, entries, disc);
  }

  /** Fatal configuration errors of the block section: the constructor fails after
      reading the search parameters exactly when some entry lacks "Block Names", some
      listed name other than the default has no block ID, or the default fill meets
      a discretization block without one that no entry names. */
  lemma ConfigureFails(params: ContactParams, entries: seq<BlockEntry>, disc: seq<string>)
    requires params.searchRadius.Some? && params.searchFrequency.Some?
    ensures Configure(params, Some(entries), disc).Err? <==>
              (exists i :: 0 <= i < |entries| && entries[i].blockNames.None?) ||
              (exists w :: w in AllWords(entries) && !IsDefaultName(w) && !HasBlockId(w)) ||
              (DefaultParams(entries).Some? &&
               exists i :: 0 <= i < |disc| && disc[i] !in NonDefault(AllWords(entries)) && !HasBlockId(disc[i]))
  {
    ExplicitBlocksFails(entries);
    var e := ExplicitBlocks(entries);
    if e.Ok? {
      ExplicitBlocksNames(entries);
      if DefaultParams(entries).Some? {
        AddDefaultBlocksFails(e.value, disc, DefaultParams(entries).value);
      }
    }
  }

  /** Lines 167-176: the block's own horizon, else the "default" horizon, else fatal. */
  function BlockHorizon(name: string, horizons: map<string, real>): (r: Result<real>)
    ensures r.Ok? <==> name in horizons || "default" in horizons
    ensures r.Ok? ==> r.value == if name in horizons then horizons[name] else horizons["default"]
    ensures r.Err? ==> r.fault == MissingHorizon(name)
  {
    if name in horizons then Ok(horizons[name])
    else if "default" in horizons then Ok(horizons["default"])
    else Err(MissingHorizon(name))
  }

  /** Lines 181-186: the first contact model's parameters with the block's horizon
      added and a friction coefficient of 0 unless one is given; a "Horizon" of the
      model's own is an error. */
  function ModelParams(models: Option<seq<ModelEntry>>, horizon: real): (r: Result<map<string, ParamValue>>)
    ensures r.Ok? <==> models.Some? && |models.value| > 0 && "Horizon" !in models.value[0].params
    ensures r.Err? ==> r.fault in {MissingParameter("Models"), EmptySublist("Models"), InvalidModelParameter("Horizon")}
    ensures r.Ok? ==> var given := models.value[0].params;
                      && r.value.Keys == given.Keys + {"Horizon", "Friction Coefficient"}
                      && r.value["Horizon"] == RealParam(horizon)
                      && r.value["Friction Coefficient"] ==
                           (if "Friction Coefficient" in given then given["Friction Coefficient"] else RealParam(0.0))
                      && forall k :: k in given ==> r.value[k] == given[k]
  {
    var list :- Required(models, "Models");
    if |list| == 0 then Err(EmptySublist("Models"))
    else
      var given := list[0].params;
      if "Horizon" in given then Err(InvalidModelParameter("Horizon"))
      else
        var withHorizon := given["Horizon" := RealParam(horizon)];
        if "Friction Coefficient" in withHorizon then Ok(withHorizon)
        else Ok(withHorizon["Friction Coefficient" := RealParam(0.0)])
  }

  /** `initialize` over the blocks in order: each block's horizon, then its model
      parameters. */
  function InitializeBlocks(blocks: seq<ContactBlock>, horizons: map<string, real>,
                            models: Option<seq<ModelEntry>>): (r: Result<seq<BlockModel>>)
    ensures r.Ok? ==> |r.value| == |blocks| &&
                      forall i :: 0 <= i < |blocks| ==>
                        r.value[i].block == blocks[i] &&
                        BlockHorizon(blocks[i].name, horizons).Ok? &&
                        ModelParams(models, BlockHorizon(blocks[i].name, horizons).value).Ok? &&
                        r.value[i].params == ModelParams(models, BlockHorizon(blocks[i].name, horizons).value).value
  {
    if |blocks| == 0 then Ok([])
    else
      var horizon :- BlockHorizon(blocks[0].name, horizons);
      var params :- ModelParams(models, horizon);
      var rest :- InitializeBlocks(blocks[1..], horizons, models);
      Ok([BlockModel(blocks[0], params)] + rest)
  }

  /** `initialize` fails exactly when some block has no horizon or, if there is any
      block, the contact model parameters are unusable; with a "default" horizon only
      the model parameters can fail it. */
  lemma {:induction false} InitializeSucceeds(blocks: seq<ContactBlock>, horizons: map<string, real>,
                                              models: Option<seq<ModelEntry>>)
    ensures InitializeBlocks(blocks, horizons, models).Ok? <==>
              |blocks| == 0 ||
              ((forall i :: 0 <= i < |blocks| ==> blocks[i].name in horizons || "default" in horizons) &&
               ModelParams(models, 0.0).Ok?)
  {
    if |blocks| > 0 {
      InitializeSucceeds(blocks[1..], horizons, models);
      assert forall i :: 1 <= i < |blocks| ==> blocks[1..][i - 1] == blocks[i];
    }
  }
}

=== FILE: contact_search.dfy ===
/** Filtering the spatial search result into contact neighbour lists (lines 516-546).
    The range search itself is external: its result is the list of owned global IDs
    it searched for and the count-prefixed list of the global IDs it found near each. */
module ContactSearch {
  import opened Failures
  import opened Sequences
  import opened OrderedSets
  import opened IndexMaps
  import opened NeighborhoodTables
  import opened BondMigration

  /** The found neighbours of one point that it is not bonded to, in search order. */
  function RetainUnbonded(found: seq<int>, bonded: seq<int>): (r: seq<int>)
    ensures forall x :: x in r <==> x in found && x !in bonded
    ensures IsSubsequence(r, found)
  {
    if |found| == 0 then []
    else if found[0] in bonded then RetainUnbonded(found[1..], bonded)
    else [found[0]] + RetainUnbonded(found[1..], bonded)
  }

  /** A neighbour the search found several times is kept as often as it was found,
      unless it is bonded. */
  lemma {:induction false} RetainUnbondedCounts(found: seq<int>, bonded: seq<int>)
    ensures forall x :: multiset(RetainUnbonded(found, bonded))[x]
                        == if x in bonded then 0 else multiset(found)[x]
  {
    if |found| > 0 {
      RetainUnbondedCounts(found[1..], bonded);
      assert found == [found[0]] + found[1..];
    }
  }

  /** Nothing is excluded for a point without bonds. */
  lemma {:induction false} NoBondsNoExclusion(found: seq<int>)
    ensures RetainUnbonded(found, []) == found
  {
    if |found| > 0 {
      NoBondsNoExclusion(found[1..]);
    }
  }

  /** The contact neighbour lists keyed by owned global ID (`contactNeighborGlobalIDs`)
      and the retained neighbours this rank does not own (`offProcessorContactIDs`). */
  datatype SearchOutcome = SearchOutcome(contacts: map<int, seq<int>>, offProcessor: seq<int>)

  function Existing(contacts: map<int, seq<int>>, g: int): seq<int> {
    if g in contacts then contacts[g] else []
  }

  /** The retained neighbours of the point searched at slot i. */
  function Retained(bondMap: BlockMap, nbrs: seq<int>, searchGids: seq<int>, found: seq<seq<int>>, i: int): seq<int>
    requires bondMap.Valid() && |nbrs| == bondMap.NumPoints()
    requires |found| == |searchGids| && 0 <= i < |searchGids|
  {
    RetainUnbonded(found[i], BondedNeighbors(bondMap, nbrs, searchGids[i]))
  }

  /** The loop over the searched points: `operator[]` creates the point's list on
      first use and each retained neighbour is appended to it; a retained neighbour
      missing from the owned map joins the off-processor set. */
  function FilterSearch(owned: seq<int>, bondMap: BlockMap, nbrs: seq<int>,
                        searchGids: seq<int>, found: seq<seq<int>>): (r: SearchOutcome)
    requires bondMap.Valid() && |nbrs| == bondMap.NumPoints() && |found| == |searchGids|
    ensures r.contacts.Keys == set g | g in searchGids
    ensures Increasing(r.offProcessor)
    decreases |searchGids|
  {
    if |searchGids| == 0 then SearchOutcome(map[], [])
    else
      var n := |searchGids| - 1;
      var prev := FilterSearch(owned, bondMap, nbrs, searchGids[..n], found[..n]);
      var g := searchGids[n];
      var kept := Retained(bondMap, nbrs, searchGids, found, n);
      var contacts := prev.contacts[g := Existing(prev.contacts, g) + kept];
      var off := InsertMissing(prev.offProcessor, kept, owned);
      SearchOutcome(contacts, off)
  }

  /** Contact/bond exclusivity: no contact neighbour of a point is bonded to it. */
  lemma {:induction false} FilterSearchExcludesBonds(owned: seq<int>, bondMap: BlockMap, nbrs: seq<int>,
                                                     searchGids: seq<int>, found: seq<seq<int>>, g: int, x: int)
    requires bondMap.Valid() && |nbrs| == bondMap.NumPoints() && |found| == |searchGids|
    requires g in FilterSearch(owned, bondMap, nbrs, searchGids, found).contacts
    requires x in FilterSearch(owned, bondMap, nbrs, searchGids, found).contacts[g]
    ensures x !in BondedNeighbors(bondMap, nbrs, g)
    decreases |searchGids|
  {
    var n := |searchGids| - 1;
    var prev := FilterSearch(owned, bondMap, nbrs, searchGids[..n], found[..n]);
    if !(g == searchGids[n] && x in Retained(bondMap, nbrs, searchGids, found, n)) {
      FilterSearchExcludesBonds(owned, bondMap, nbrs, searchGids[..n], found[..n], g, x);
    }
  }

  /** Some list of `c` holds `y`. */
  predicate Mentions(c: map<int, seq<int>>, y: int) {
    exists h :: h in c && y in c[h]
  }

  /** Appending `kept` to the list of `g` adds exactly the members of `kept`. */
  lemma MentionsAppend(c: map<int, seq<int>>, g: int, kept: seq<int>, y: int)
    ensures Mentions(c[g := Existing(c, g) + kept], y) <==> Mentions(c, y) || y in kept
  {
    var d := c[g := Existing(c, g) + kept];
    if y in kept {
      assert g in d && y in d[g];
    }
    if Mentions(c, y) {
      var h :| h in c && y in c[h];
      assert h in d && y in d[h];
    }
    if Mentions(d, y) {
      var h :| h in d && y in d[h];
      if h != g || y !in kept {
        assert h in c && y in c[h];
      }
    }
  }

  /** A global ID is in the off-processor set exactly when some point retained it as
      a contact neighbour and this rank does not own it. */
  lemma {:induction false} FilterSearchOffProcessor(owned: seq<int>, bondMap: BlockMap, nbrs: seq<int>,
                                                    searchGids: seq<int>, found: seq<seq<int>>, y: int)
    requires bondMap.Valid() && |nbrs| == bondMap.NumPoints() && |found| == |searchGids|
    ensures var r := FilterSearch(owned, bondMap, nbrs, searchGids, found);
            y in r.offProcessor <==> y !in owned && Mentions(r.contacts, y)
    decreases |searchGids|
  {
    var r := FilterSearch(owned, bondMap, nbrs, searchGids, found);
    if |searchGids| > 0 {
      var n := |searchGids| - 1;
      var prev := FilterSearch(owned, bondMap, nbrs, searchGids[..n], found[..n]);
      var g := searchGids[n];
      var kept := Retained(bondMap, nbrs, searchGids, found, n);
      assert r.contacts == prev.contacts[g := Existing(prev.contacts, g) + kept];
      assert r.offProcessor == InsertMissing(prev.offProcessor, kept, owned);
      assert y in r.offProcessor <==> y in prev.offProcessor || (y in kept && y !in owned);
      FilterSearchOffProcessor(owned, bondMap, nbrs, searchGids[..n], found[..n], y);
      MentionsAppend(prev.contacts, g, kept, y);
      assert Mentions(r.contacts, y) <==> Mentions(prev.contacts, y) || y in kept;
    }
  }

  /** Each point searched once gets exactly its own retained neighbours. */
  lemma {:induction false} FilterSearchDistinct(owned: seq<int>, bondMap: BlockMap, nbrs: seq<int>,
                                                searchGids: seq<int>, found: seq<seq<int>>, i: int)
    requires bondMap.Valid() && |nbrs| == bondMap.NumPoints() && |found| == |searchGids|
    requires Distinct(searchGids) && 0 <= i < |searchGids|
    ensures FilterSearch(owned, bondMap, nbrs, searchGids, found).contacts[searchGids[i]]
            == RetainUnbonded(found[i], BondedNeighbors(bondMap, nbrs, searchGids[i]))
    decreases |searchGids|
  {
    var n := |searchGids| - 1;
    var prev := FilterSearch(owned, bondMap, nbrs, searchGids[..n], found[..n]);
    if i == n {
      assert searchGids[n] !in searchGids[..n];
      assert searchGids[n] !in prev.contacts;
    } else {
      assert searchGids[..n][i] == searchGids[i] && found[..n][i] == found[i];
      FilterSearchDistinct(owned, bondMap, nbrs, searchGids[..n], found[..n], i);
    }
  }

  /** Every retained neighbour of a point was found near it by the search. */
  lemma {:induction false} FilterSearchFound(owned: seq<int>, bondMap: BlockMap, nbrs: seq<int>,
                                             searchGids: seq<int>, found: seq<seq<int>>, g: int, x: int)
    requires bondMap.Valid() && |nbrs| == bondMap.NumPoints() && |found| == |searchGids|
    requires g in FilterSearch(owned, bondMap, nbrs, searchGids, found).contacts
    requires x in FilterSearch(owned, bondMap, nbrs, searchGids, found).contacts[g]
    ensures exists i :: 0 <= i < |searchGids| && searchGids[i] == g && x in found[i]
    decreases |searchGids|
  {
    var n := |searchGids| - 1;
    var prev := FilterSearch(owned, bondMap, nbrs, searchGids[..n], found[..n]);
    if g == searchGids[n] && x in Retained(bondMap, nbrs, searchGids, found, n) {
      assert x in found[n];
    } else {
      assert g in prev.contacts && x in prev.contacts[g];
      FilterSearchFound(owned, bondMap, nbrs, searchGids[..n], found[..n], g, x);
      var i :| 0 <= i < n && searchGids[..n][i] == g && x in found[..n][i];
      assert searchGids[i] == g && x in found[i];
    }
  }

  /** Lines 514-546: the search result list is read one count-prefixed segment per
      searched point and filtered against the bonds. */
  function SearchContacts(owned: seq<int>, bondMap: BlockMap, nbrs: seq<int>,
                          searchGids: seq<int>, searchList: seq<int>): (r: Result<SearchOutcome>)
    requires bondMap.Valid() && |nbrs| == bondMap.NumPoints()
    ensures r.Err? <==> Decode(searchList, |searchGids|).Err?
    ensures r.Err? ==> r.fault == MalformedNeighborList
    ensures r.Ok? ==> r.value.contacts.Keys == set g | g in searchGids
  {
    var found :- Decode(searchList, |searchGids|);
    Ok(FilterSearch(owned, bondMap, nbrs, searchGids, found))
  }
}

=== FILE: cpp_integers.dfy ===
/** The C++ integer division the cadence test uses: truncation toward zero, so the
    remainder takes the sign of the dividend, unlike Dafny's Euclidean `/` and `%`. */
module CppIntegers {

  /** The range of the source's 32-bit `int`. */
  const IntMin: int := -0x8000_0000
  const IntMax: int := 0x7fff_ffff

  function Abs(x: int): nat {
    if x < 0 then -x else x
  }
  lemma ModRange(a: int, b: int)
    requires b > 0
    ensures 0 <= a % b < b && a == (a / b) * b + a % b
  {
  }

  /** C++ `a / b`: the quotient truncated toward zero. */
  function CppQuot(a: int, b: int): int
    requires b != 0
  {
    var q: int := Abs(a) / Abs(b);
    if (a < 0) == (b < 0) then q else -q
  }

  /** C++ `a % b`: smaller than the divisor in magnitude, and of the dividend's sign. */
  function CppRem(a: int, b: int): (r: int)
    requires b != 0
    ensures -(Abs(b) as int) < r < Abs(b)
    ensures a > 0 ==> r >= 0
    ensures a < 0 ==> r <= 0
  {
    ModRange(Abs(a), Abs(b));
    var m := Abs(a) % Abs(b);
    if a < 0 then -m else m
  }

  /** The identity C++ guarantees: `(a / b) * b + a % b == a`. */
  lemma CppDivision(a: int, b: int)
    requires b != 0
    ensures CppQuot(a, b) * b + CppRem(a, b) == a
  {
    var A, B := Abs(a), Abs(b);
    ModRange(A, B);
    var x, m := A / B, A % B;
    assert A == x * B + m;
    if b < 0 {
      assert x * b == -(x * B);
    }
  }

  lemma MulMono(d: int, b: int)
    requires d >= 1 && b > 0
    ensures d * b >= b
  {
    assert d * b == (d - 1) * b + b;
    assert (d - 1) * b >= 0;
  }

  /** The remainder is the only value in [0, B) by which `a` exceeds a multiple of B. */
  lemma ModUnique(a: int, B: int, q: int, r: int)
    requires B > 0 && 0 <= r < B && a == q * B + r
    ensures a % B == r
  {
    var e := a / B;
    ModRange(a, B);
    assert (q - e) * B == a % B - r;
    if q - e > 0 {
      MulMono(q - e, B);
    } else if q - e < 0 {
      MulMono(e - q, B);
    }
  }

  /** Dafny's remainder ignores the divisor's sign. */
  lemma ModAbs(a: int, b: int)
    requires b != 0
    ensures a % b == a % Abs(b)
  {
    if b < 0 {
      var q, r := a / b, a % b;
      assert 0 <= r < -b && a == q * b + r;
      assert q * b == (-q) * Abs(b);
      ModUnique(a, Abs(b), -q, r);
    }
  }

  /** The C++ remainder vanishes exactly when the Euclidean one does, so a
      divisibility test written with `%` means the same in both languages. */
  lemma CppRemZero(a: int, b: int)
    requires b != 0
    ensures CppRem(a, b) == 0 <==> a % b == 0
  {
    var A, B := Abs(a), Abs(b);
    ModAbs(a, b);
    if a % B == 0 {
      ModRange(a, B);
      var q := a / B;
      assert a == q * B;
      assert A == Abs(q) * B;
      ModUnique(A, B, Abs(q), 0);
    }
    if A % B == 0 {
      ModRange(A, B);
      var x: int := A / B;
      assert A == x * B;
      var q: int := if a < 0 then -x else x;
      assert a == q * B;
      ModUnique(a, B, q, 0);
    }
  }

  /** `a % b` on 32-bit operands whose quotient `a / b` does not fit, which C++ leaves
      undefined: the smallest `int` divided by -1. */
  predicate RemOverflows(a: int, b: int) {
    a == IntMin && b == -1
  }

  /** Among 32-bit operands with a non-zero divisor, the truncating quotient leaves
      the 32-bit range exactly in the `RemOverflows` case. */
  lemma QuotientOverflows(a: int, b: int)
    requires IntMin <= a <= IntMax && IntMin <= b <= IntMax && b != 0
    ensures !(IntMin <= CppQuot(a, b) <= IntMax) <==> RemOverflows(a, b)
  {
    var A: int, B: int := Abs(a), Abs(b);
    if B >= 2 {
      assert A / B <= A / 2 by {
        DivideByLarger(A, 2, B);
      }
    } else {
      assert A / B == A;
    }
  }

  /** Dividing by a larger divisor gives no larger a quotient. */
  lemma DivideByLarger(a: nat, b: nat, c: nat)
    requires 0 < b <= c
    ensures a / c <= a / b
  {
    ModRange(a, b);
    ModRange(a, c);
    var qb, qc := a / b, a / c;
    if qc > qb {
      assert qc * c >= (qb + 1) * c by {
        MulLeft(qb + 1, qc, c);
      }
      assert (qb + 1) * c >= (qb + 1) * b by {
        MulLeft(b, c, qb + 1);
      }
      assert false;
    }
  }

  lemma MulLeft(x: int, y: int, z: nat)
    requires x <= y
    ensures x * z <= y * z
  {
    assert y * z - x * z == (y - x) * z;
  }
}

=== FILE: failures.dfy ===
/** Fatal conditions of the contact manager and the result type that carries them.
    Every condition the manager reports through TEUCHOS_TEST_FOR_EXCEPTION, and the
    few places where it would read out of bounds, becomes one `Fault`. */
module Failures {

  datatype Fault =
    /** A required parameter ("Search Radius", "Search Frequency", "Block Names") or
        sublist ("Blocks", "Models") is absent. */
    | MissingParameter(key: string)
    /** The "Models" sublist holds no entry, so it has no first contact model. */
    | EmptySublist(key: string)
    /** A block name without the `_` that separates the block ID. */
    | InvalidBlockName(name: string)
    /** A block name with nothing but white space after its last `_`: reading the ID
        stops before any conversion and leaves the uninitialized `blockID` unset. */
    | UnreadBlockId(name: string)
    /** No horizon for the block and no "default" horizon. */
    | MissingHorizon(block: string)
    /** The contact model's parameter list already holds a reserved key ("Horizon"). */
    | InvalidModelParameter(key: string)
    /** A global ID that has no local ID in the overlap map. */
    | UnresolvedGid(gid: int)
    /** An owned global ID that the contact search produced no entry for. */
    | MissingContactKey(gid: int)
    /** A count-prefixed list that ends before its counts say it should. */
    | MalformedNeighborList
    /** The cadence test `step % frequency` with a zero frequency. */
    | ZeroSearchFrequency
    /** The cadence test `step % frequency` with the smallest `int` step and frequency
        -1, whose quotient does not fit in an `int`. */
    | RemainderOverflow

  datatype Result<+T> = Ok(value: T) | Err(fault: Fault) {

    predicate IsFailure() {
      Err?
    }

    function PropagateFailure<U>(): Result<U>
      requires Err?
    {
      Err(fault)
    }

    function Extract(): T
      requires Ok?
    {
      value
    }
  }

  datatype Option<+T> = None | Some(value: T)
}

=== FILE: index_maps.dfy ===
/** The distributed index maps of one rank and the import that moves data between
    two of them.

    A point map (an `Epetra_BlockMap` with element size 1 or 3) is the sequence of
    the global IDs this rank holds; the local ID of a global ID is its slot. A block
    map with variable element sizes (the bond map) adds the number of points of
    each element, and a vector on it is the flat sequence of all its points.

    An import is collective; from one rank's point of view it is a lookup keyed by
    global ID, assembled from every rank's contribution. The local contribution is
    computed here, the other ranks' contributions are an input. */
module IndexMaps {
  import opened Sequences

  /** `Epetra_BlockMap::LID`: the slot of `g`, or -1 when this rank does not hold it. */
  function Lid(gids: seq<int>, g: int): (r: int)
    ensures -1 <= r < |gids|
    ensures r == -1 <==> g !in gids
    ensures r >= 0 ==> gids[r] == g && forall j :: 0 <= j < r ==> gids[j] != g
  {
    if |gids| == 0 then -1
    else if gids[0] == g then 0
    else
      var k := Lid(gids[1..], g);
      if k == -1 then -1 else k + 1
  }

  /** `Epetra_BlockMap::GID` with index base 0: the global ID at a slot, or -1 outside the map. */
  function Gid(gids: seq<int>, lid: int): int {
    if 0 <= lid < |gids| then gids[lid] else -1
  }

  lemma LidOfDistinct(gids: seq<int>, i: int)
    requires Distinct(gids) && 0 <= i < |gids|
    ensures Lid(gids, gids[i]) == i
  {
  }

  /** Element k of the map is global ID `gids[k]` and spans `sizes[k]` points. */
  datatype BlockMap = BlockMap(gids: seq<int>, sizes: seq<nat>) {

    predicate Valid() {
      |gids| == |sizes|
    }

    /** `NumMyPoints`: the length of a vector on this map. */
    function NumPoints(): nat {
      Sum(sizes)
    }

    /** `FirstPointInElementList()[k]`: the offset of element k's first point. */
    function FirstPoint(k: nat): nat
      requires k <= |sizes|
    {
      Sum(sizes[..k])
    }
  }

  /** Cuts a vector into consecutive pieces of the given sizes. */
  function Split(sizes: seq<nat>, v: seq<int>): (r: seq<seq<int>>)
    requires |v| == Sum(sizes)
    ensures |r| == |sizes|
    ensures forall k :: 0 <= k < |r| ==> |r[k]| == sizes[k]
    ensures Flatten(r) == v
  {
    if |sizes| == 0 then []
    else
      var rest := Split(sizes[1..], v[sizes[0]..]);
      assert v == v[..sizes[0]] + v[sizes[0]..];
      [v[..sizes[0]]] + rest
  }

  /** The values of element k of a vector on block map `m`. */
  function ElementValues(m: BlockMap, v: seq<int>, k: int): seq<int>
    requires m.Valid() && |v| == m.NumPoints() && 0 <= k < |m.gids|
  {
    Split(m.sizes, v)[k]
  }

  /** Element k's values are exactly the slice the source reads through
      `FirstPointInElementList()[k]` and `ElementSize(k)`. */
  lemma {:induction false} ElementValuesAtFirstPoint(sizes: seq<nat>, v: seq<int>, k: int)
    requires |v| == Sum(sizes) && 0 <= k < |sizes|
    ensures Sum(sizes[..k]) + sizes[k] <= |v|
    ensures Split(sizes, v)[k] == v[Sum(sizes[..k]) .. Sum(sizes[..k]) + sizes[k]]
  {
    if k == 0 {
      assert sizes[..0] == [];
    } else {
      assert sizes[..k] == [sizes[0]] + sizes[1..][..k - 1];
      ElementValuesAtFirstPoint(sizes[1..], v[sizes[0]..], k - 1);
    }
  }

  /** Splitting a concatenation by its own piece lengths gives the pieces back. */
  lemma {:induction false} SplitFlatten(sizes: seq<nat>, segs: seq<seq<int>>)
    requires |segs| == |sizes|
    requires forall k :: 0 <= k < |segs| ==> |segs[k]| == sizes[k]
    ensures |Flatten(segs)| == Sum(sizes)
    ensures Split(sizes, Flatten(segs)) == segs
  {
    if |segs| > 0 {
      SplitFlatten(sizes[1..], segs[1..]);
      var v := Flatten(segs);
      assert v[..sizes[0]] == segs[0];
      assert v[sizes[0]..] == Flatten(segs[1..]);
    }
  }

  /** What a vector on point map `gids` contributes to an import, keyed by global ID. */
  function Contribution<V>(gids: seq<int>, values: seq<V>): (m: map<int, V>)
    requires |gids| == |values|
    ensures m.Keys == set g | g in gids
    ensures Distinct(gids) ==> forall i :: 0 <= i < |gids| ==> m[gids[i]] == values[i]
  {
    if |gids| == 0 then map[]
    else Contribution(gids[1..], values[1..])[gids[0] := values[0]]
  }

  /** Import with the `Insert` combine mode into a freshly constructed (zero) vector on
      point map `target`: each slot takes the value the exchange holds for its global ID. */
  function ImportScalars(exchange: map<int, int>, target: seq<int>): (r: seq<int>)
    ensures |r| == |target|
  {
    seq(|target|, i requires 0 <= i < |target| =>
      if target[i] in exchange then exchange[target[i]] else 0)
  }

  /** Importing a vector into the map it lives on reproduces it, whatever other
      ranks contribute for global IDs this rank does not hold. */
  lemma ImportScalarsRoundTrip(remote: map<int, int>, gids: seq<int>, values: seq<int>)
    requires |gids| == |values| && Distinct(gids)
    ensures ImportScalars(remote + Contribution(gids, values), gids) == values
  {
  }

  function Zeros(n: nat): (r: seq<int>)
    ensures |r| == n && forall i :: 0 <= i < n ==> r[i] == 0
  {
    seq(n, i => 0)
  }

  /** The per-element contribution of a vector on block map `m`. */
  function BlockContribution(m: BlockMap, v: seq<int>): map<int, seq<int>>
    requires m.Valid() && |v| == m.NumPoints()
  {
    Contribution(m.gids, Split(m.sizes, v))
  }

  /** Per element of `target`: the exchanged values when the exchange holds a block of
      the element's size for its global ID, and the fresh vector's zeros otherwise. */
  function ImportedElements(exchange: map<int, seq<int>>, target: BlockMap): (r: seq<seq<int>>)
    requires target.Valid()
    ensures |r| == |target.gids|
    ensures forall k :: 0 <= k < |r| ==> |r[k]| == target.sizes[k]
  {
    seq(|target.gids|, k requires 0 <= k < |target.gids| =>
      var g := target.gids[k];
      if g in exchange && |exchange[g]| == target.sizes[k] then exchange[g]
      else Zeros(target.sizes[k]))
  }

  /** Import of a variable-size vector into a fresh vector on block map `target`. */
  function ImportBlocks(exchange: map<int, seq<int>>, target: BlockMap): (r: seq<int>)
    requires target.Valid()
    ensures |r| == target.NumPoints()
    ensures Split(target.sizes, r) == ImportedElements(exchange, target)
  {
    SplitFlatten(target.sizes, ImportedElements(exchange, target));
    Flatten(ImportedElements(exchange, target))
  }

  /** Importing a block vector into the map it lives on reproduces it. */
  lemma ImportBlocksRoundTrip(remote: map<int, seq<int>>, m: BlockMap, v: seq<int>)
    requires m.Valid() && |v| == m.NumPoints() && Distinct(m.gids)
    ensures ImportBlocks(remote + BlockContribution(m, v), m) == v
  {
    var exchange := remote + BlockContribution(m, v);
    var parts := Split(m.sizes, v);
    assert ImportedElements(exchange, m) == parts;
  }
}

=== FILE: neighborhood_build.dfy ===
/** Building the rebalanced overlap map and the two neighbourhood tables on it
    (lines 334-343, 571-618, 621-663). */
module NeighborhoodBuild {
  import opened Failures
  import opened Sequences
  import opened OrderedSets
  import opened IndexMaps
  import opened NeighborhoodTables
  import opened BondMigration

  /** Overlap local IDs of `gids`, unchecked: a global ID the overlap map lacks gives -1. */
  function LocalIds(gids: seq<int>, overlap: seq<int>): (r: seq<int>)
    ensures |r| == |gids|
  {
    seq(|gids|, j requires 0 <= j < |gids| => Lid(overlap, gids[j]))
  }

  function LidLists(lists: seq<seq<int>>, overlap: seq<int>): (r: seq<seq<int>>)
    ensures |r| == |lists|
  {
    seq(|lists|, i requires 0 <= i < |lists| => LocalIds(lists[i], overlap))
  }

  /** Overlap local IDs of `gids`, fatal at the first global ID the overlap map lacks. */
  function Resolve(gids: seq<int>, overlap: seq<int>): (r: Result<seq<int>>)
    ensures r.Ok? <==> forall x :: x in gids ==> x in overlap
    ensures r.Ok? ==> r.value == LocalIds(gids, overlap)
    ensures r.Err? ==> r.fault.UnresolvedGid? && r.fault.gid in gids && r.fault.gid !in overlap
  {
    if |gids| == 0 then Ok([])
    else if gids[0] !in overlap then Err(UnresolvedGid(gids[0]))
    else
      var rest :- Resolve(gids[1..], overlap);
      assert [Lid(overlap, gids[0])] + rest == LocalIds(gids, overlap);
      Ok([Lid(overlap, gids[0])] + rest)
  }

  /** Resolved local IDs lead back to the global IDs they were resolved from. */
  lemma GlobalIdsOfLocalIds(gids: seq<int>, overlap: seq<int>)
    requires forall x :: x in gids ==> x in overlap
    ensures GlobalIds(LocalIds(gids, overlap), overlap) == gids
  {
  }

  /** Lines 336-343: the owned global IDs in owned order, then the ghosts. */
  function OverlapMap(owned: seq<int>, ghosts: seq<int>): seq<int> {
    owned + ghosts
  }

  /** With ascending ghosts that are never owned, the overlap map has no duplicates,
      each owned point keeps its owned slot and the ghosts follow in ascending order. */
  lemma OverlapLayout(owned: seq<int>, ghosts: seq<int>)
    requires Distinct(owned) && Increasing(ghosts)
    requires forall g :: g in ghosts ==> g !in owned
    ensures var ov := OverlapMap(owned, ghosts);
            && |ov| == |owned| + |ghosts|
            && ov[..|owned|] == owned && ov[|owned|..] == ghosts
            && Distinct(ov)
            && (forall i :: 0 <= i < |owned| ==> Lid(ov, owned[i]) == i)
            && (forall k :: 0 <= k < |ghosts| ==> Lid(ov, ghosts[k]) == |owned| + k)
  {
    var ov := OverlapMap(owned, ghosts);
    forall i, j | 0 <= i < j < |ov|
      ensures ov[i] != ov[j]
    {
      if j < |owned| {
        assert ov[i] == owned[i] && ov[j] == owned[j];
      } else if i < |owned| {
        assert ov[i] == owned[i] && ov[j] == ghosts[j - |owned|];
        assert ghosts[j - |owned|] in ghosts;
      } else {
        assert ov[i] == ghosts[i - |owned|] && ov[j] == ghosts[j - |owned|];
        assert ghosts[i - |owned|] < ghosts[j - |owned|];
      }
    }
    forall i | 0 <= i < |owned|
      ensures Lid(ov, owned[i]) == i
    {
      assert ov[i] == owned[i];
      LidOfDistinct(ov, i);
    }
    forall k | 0 <= k < |ghosts|
      ensures Lid(ov, ghosts[k]) == |owned| + k
    {
      assert ov[|owned| + k] == ghosts[k];
      LidOfDistinct(ov, |owned| + k);
    }
  }

  /** Lines 571-618: the bond table on the rebalanced overlap map. The owned IDs are
      resolved first, then each owned point's bonded neighbours in owned order; a
      point without a bond map element gets count 0. */
  function BondTable(owned: seq<int>, overlap: seq<int>, bondMap: BlockMap, nbrs: seq<int>)
    : (r: Result<NeighborhoodData>)
    requires bondMap.Valid() && |nbrs| == bondMap.NumPoints()
    ensures r.Ok? <==> (forall g :: g in owned ==> g in overlap) &&
                       (forall x :: x in Flatten(BondedLists(owned, bondMap, nbrs)) ==> x in overlap)
    ensures r.Err? ==> r.fault.UnresolvedGid? && r.fault.gid !in overlap
    ensures r.Ok? ==> |r.value.ownedIds| == |owned| && |r.value.ptr| == |owned|
  {
    var ownedIds :- Resolve(owned, overlap);
    var lists := BondedLists(owned, bondMap, nbrs);
    var _ :- Resolve(Flatten(lists), overlap);
    var lids := LidLists(lists, overlap);
    Ok(NeighborhoodData(ownedIds, Encode(lids), Offsets(lids)))
  }

  /** The entry of owned point i: its slot in the overlap map, then at `ptr[i]` its bond
      count (0 without a bond map element) followed by the local IDs of its bonded
      neighbours, which lead back to their global IDs in stored order. */
  lemma BondTableEntry(owned: seq<int>, overlap: seq<int>, bondMap: BlockMap, nbrs: seq<int>, i: int)
    requires bondMap.Valid() && |nbrs| == bondMap.NumPoints() && 0 <= i < |owned|
    requires BondTable(owned, overlap, bondMap, nbrs).Ok?
    ensures var t := BondTable(owned, overlap, bondMap, nbrs).value;
            var p := t.ptr[i];
            var n := BondCount(bondMap, owned[i]);
            && t.ownedIds[i] == Lid(overlap, owned[i]) >= 0
            && 0 <= p && p + 1 + n <= |t.list|
            && t.list[p] == n
            && GlobalIds(t.list[p + 1 .. p + 1 + n], overlap) == BondedNeighbors(bondMap, nbrs, owned[i])
  {
    var lists := BondedLists(owned, bondMap, nbrs);
    var lids := LidLists(lists, overlap);
    BondTableLayout(owned, overlap, bondMap, nbrs);
    EncodeEntry(lids, i);
    assert |lids[i]| == BondCount(bondMap, owned[i]);
    BondListResolved(owned, overlap, bondMap, nbrs, i);
  }

  /** The bond table is the owned local IDs with the encoded local ID lists. */
  lemma BondTableLayout(owned: seq<int>, overlap: seq<int>, bondMap: BlockMap, nbrs: seq<int>)
    requires bondMap.Valid() && |nbrs| == bondMap.NumPoints()
    requires BondTable(owned, overlap, bondMap, nbrs).Ok?
    ensures var lids := LidLists(BondedLists(owned, bondMap, nbrs), overlap);
            BondTable(owned, overlap, bondMap, nbrs).value
              == NeighborhoodData(LocalIds(owned, overlap), Encode(lids), Offsets(lids))
  {
  }

  /** The local IDs stored for owned point i lead back to its bonded neighbours. */
  lemma BondListResolved(owned: seq<int>, overlap: seq<int>, bondMap: BlockMap, nbrs: seq<int>, i: int)
    requires bondMap.Valid() && |nbrs| == bondMap.NumPoints() && 0 <= i < |owned|
    requires BondTable(owned, overlap, bondMap, nbrs).Ok?
    ensures GlobalIds(LocalIds(BondedNeighbors(bondMap, nbrs, owned[i]), overlap), overlap)
            == BondedNeighbors(bondMap, nbrs, owned[i])
  {
    var lists := BondedLists(owned, bondMap, nbrs);
    forall x | x in lists[i]
      ensures x in overlap
    {
      FlattenMembers(lists, i, x);
    }
    GlobalIdsOfLocalIds(lists[i], overlap);
  }

  /** Decoding the bond table through the overlap map gives back the neighbour global
      IDs of the owned points in owned order; over a bond map compacted from the owned
      map that is the whole rebalanced neighbour vector. */
  lemma BondTableRoundTrip(owned: seq<int>, overlap: seq<int>, bondMap: BlockMap, nbrs: seq<int>)
    requires bondMap.Valid() && |nbrs| == bondMap.NumPoints()
    requires BondTable(owned, overlap, bondMap, nbrs).Ok?
    ensures NeighborGlobalIds(BondTable(owned, overlap, bondMap, nbrs).value, overlap)
            == Ok(Flatten(BondedLists(owned, bondMap, nbrs)))
    ensures Distinct(owned) && CompactOver(bondMap, owned) ==>
              NeighborGlobalIds(BondTable(owned, overlap, bondMap, nbrs).value, overlap) == Ok(nbrs)
  {
    var t := BondTable(owned, overlap, bondMap, nbrs).value;
    var lists := BondedLists(owned, bondMap, nbrs);
    var lids := LidLists(lists, overlap);
    DecodeEncode(lids, []);
    assert Encode(lids) + [] == t.list;
    var decoded := seq(|lids|, i requires 0 <= i < |lids| => GlobalIds(lids[i], overlap));
    forall i | 0 <= i < |lists|
      ensures decoded[i] == lists[i]
    {
      forall x | x in lists[i]
        ensures x in overlap
      {
        FlattenMembers(lists, i, x);
      }
      GlobalIdsOfLocalIds(lists[i], overlap);
    }
    assert decoded == lists;
    if Distinct(owned) && CompactOver(bondMap, owned) {
      BondedNeighborsCover(owned, bondMap, nbrs);
    }
  }

  /** The list fills exactly the size the source allocates for it: one count per owned
      point plus every point of the bond map. */
  lemma BondTableSize(owned: seq<int>, overlap: seq<int>, bondMap: BlockMap, nbrs: seq<int>)
    requires bondMap.Valid() && |nbrs| == bondMap.NumPoints()
    requires Distinct(owned) && CompactOver(bondMap, owned)
    requires BondTable(owned, overlap, bondMap, nbrs).Ok?
    ensures |BondTable(owned, overlap, bondMap, nbrs).value.list| == |owned| + bondMap.NumPoints()
  {
    var lists := BondedLists(owned, bondMap, nbrs);
    var lids := LidLists(lists, overlap);
    EncodeLength(lids);
    assert Lengths(lids) == Lengths(lists);
    FlattenLength(lists);
    BondedNeighborsCover(owned, bondMap, nbrs);
  }

  /** The contact neighbour lists of the owned points, fatal at the first owned point
      the contact search made no entry for. */
  function ContactLists(contacts: map<int, seq<int>>, owned: seq<int>): (r: Result<seq<seq<int>>>)
    ensures r.Ok? <==> forall g :: g in owned ==> g in contacts
    ensures r.Ok? ==> |r.value| == |owned| &&
                      forall i :: 0 <= i < |owned| ==> owned[i] in contacts && r.value[i] == contacts[owned[i]]
    ensures r.Err? ==> r.fault.MissingContactKey? && r.fault.gid in owned && r.fault.gid !in contacts
  {
    if |owned| == 0 then Ok([])
    else if owned[0] !in contacts then Err(MissingContactKey(owned[0]))
    else
      var rest :- ContactLists(contacts, owned[1..]);
      Ok([contacts[owned[0]]] + rest)
  }

  /** Local IDs of global IDs the overlap map holds are never -1. */
  lemma LocalIdsNonNegative(gids: seq<int>, overlap: seq<int>)
    requires forall x :: x in gids ==> x in overlap
    ensures NonNegative(LocalIds(gids, overlap))
  {
    forall k | 0 <= k < |gids|
      ensures LocalIds(gids, overlap)[k] >= 0
    {
      assert gids[k] in gids;
    }
  }

  /** A bond table that was built stores no -1: every ID in it was resolved. */
  lemma BondTableNonNegative(owned: seq<int>, overlap: seq<int>, bondMap: BlockMap, nbrs: seq<int>)
    requires bondMap.Valid() && |nbrs| == bondMap.NumPoints()
    requires BondTable(owned, overlap, bondMap, nbrs).Ok?
    ensures NonNegative(BondTable(owned, overlap, bondMap, nbrs).value.ownedIds)
    ensures NonNegative(BondTable(owned, overlap, bondMap, nbrs).value.list)
  {
    var lists := BondedLists(owned, bondMap, nbrs);
    var lids := LidLists(lists, overlap);
    BondTableLayout(owned, overlap, bondMap, nbrs);
    LocalIdsNonNegative(owned, overlap);
    forall i | 0 <= i < |lids|
      ensures NonNegative(lids[i])
    {
      forall x | x in lists[i]
        ensures x in overlap
      {
        FlattenMembers(lists, i, x);
      }
      LocalIdsNonNegative(lists[i], overlap);
    }
    EncodeNonNegative(lids);
  }

  /** Lines 621-663: the contact table on the rebalanced overlap map. The owned IDs are
      checked against the overlap map, the neighbours are not: a neighbour the overlap
      map lacks is stored as -1. */
  function ContactTable(contacts: map<int, seq<int>>, owned: seq<int>, overlap: seq<int>)
    : (r: Result<NeighborhoodData>)
    ensures r.Ok? <==> (forall g :: g in owned ==> g in overlap) && (forall g :: g in owned ==> g in contacts)
    ensures r.Err? ==> (r.fault.UnresolvedGid? && r.fault.gid in owned && r.fault.gid !in overlap) ||
                       (r.fault.MissingContactKey? && r.fault.gid in owned && r.fault.gid !in contacts)
    ensures r.Ok? ==> |r.value.ownedIds| == |owned| && |r.value.ptr| == |owned|
  {
    var ownedIds :- Resolve(owned, overlap);
    var lists :- ContactLists(contacts, owned);
    var lids := LidLists(lists, overlap);
    Ok(NeighborhoodData(ownedIds, Encode(lids), Offsets(lids)))
  }

  /** The entry of owned point i: at `ptr[i]` the size of its contact list, followed by
      the overlap local IDs of its contact neighbours in stored order. */
  lemma ContactTableEntry(contacts: map<int, seq<int>>, owned: seq<int>, overlap: seq<int>, i: int)
    requires 0 <= i < |owned| && ContactTable(contacts, owned, overlap).Ok?
    ensures var t := ContactTable(contacts, owned, overlap).value;
            var p := t.ptr[i];
            var nbrs := contacts[owned[i]];
            && t.ownedIds[i] == Lid(overlap, owned[i]) >= 0
            && 0 <= p && p + 1 + |nbrs| <= |t.list|
            && t.list[p] == |nbrs|
            && t.list[p + 1 .. p + 1 + |nbrs|] == LocalIds(nbrs, overlap)
  {
    var lists := ContactLists(contacts, owned).value;
    var lids := LidLists(lists, overlap);
    ContactTableLayout(contacts, owned, overlap);
    EncodeEntry(lids, i);
    assert lids[i] == LocalIds(contacts[owned[i]], overlap);
  }

  /** The contact table is the owned local IDs with the encoded local ID lists. */
  lemma ContactTableLayout(contacts: map<int, seq<int>>, owned: seq<int>, overlap: seq<int>)
    requires ContactTable(contacts, owned, overlap).Ok?
    ensures ContactLists(contacts, owned).Ok?
    ensures var lids := LidLists(ContactLists(contacts, owned).value, overlap);
            ContactTable(contacts, owned, overlap).value
              == NeighborhoodData(Resolve(owned, overlap).value, Encode(lids), Offsets(lids))
  {
  }

  /** A contact table whose neighbours the overlap map all holds stores no -1. */
  lemma ContactTableNonNegative(contacts: map<int, seq<int>>, owned: seq<int>, overlap: seq<int>)
    requires ContactTable(contacts, owned, overlap).Ok?
    requires forall g :: g in owned && g in contacts ==> forall x :: x in contacts[g] ==> x in overlap
    ensures NonNegative(ContactTable(contacts, owned, overlap).value.ownedIds)
    ensures NonNegative(ContactTable(contacts, owned, overlap).value.list)
  {
    var lists := ContactLists(contacts, owned).value;
    var lids := LidLists(lists, overlap);
    ContactTableLayout(contacts, owned, overlap);
    LocalIdsNonNegative(owned, overlap);
    forall i | 0 <= i < |lids|
      ensures NonNegative(lids[i])
    {
      assert owned[i] in owned;
      LocalIdsNonNegative(lists[i], overlap);
    }
    EncodeNonNegative(lids);
  }

  /** A reader of the contact table finds at owned slot i the local IDs of the point's
      contact neighbours, and these lead back to the neighbours when the overlap map
      holds them all. */
  lemma ContactEntryReadsBack(contacts: map<int, seq<int>>, owned: seq<int>, overlap: seq<int>, i: int)
    requires 0 <= i < |owned| && ContactTable(contacts, owned, overlap).Ok?
    ensures Entry(ContactTable(contacts, owned, overlap).value, i) == LocalIds(contacts[owned[i]], overlap)
    ensures (forall x :: x in contacts[owned[i]] ==> x in overlap) ==>
              GlobalIds(Entry(ContactTable(contacts, owned, overlap).value, i), overlap) == contacts[owned[i]]
  {
    ContactTableEntry(contacts, owned, overlap, i);
    if forall x :: x in contacts[owned[i]] ==> x in overlap {
      GlobalIdsOfLocalIds(contacts[owned[i]], overlap);
    }
  }

  /** A reader of the bond table finds at owned slot i local IDs that lead back to the
      point's bonded neighbours. */
  lemma BondEntryReadsBack(owned: seq<int>, overlap: seq<int>, bondMap: BlockMap, nbrs: seq<int>, i: int)
    requires bondMap.Valid() && |nbrs| == bondMap.NumPoints() && 0 <= i < |owned|
    requires BondTable(owned, overlap, bondMap, nbrs).Ok?
    ensures GlobalIds(Entry(BondTable(owned, overlap, bondMap, nbrs).value, i), overlap)
            == BondedNeighbors(bondMap, nbrs, owned[i])
  {
    BondTableEntry(owned, overlap, bondMap, nbrs, i);
  }

  /** The unchecked store of line 658: a contact neighbour outside the overlap map
      reaches the table as -1. */
  lemma ContactTableStoresMinusOne()
    ensures ContactTable(map[1 := [9]], [1], [1]) == Ok(NeighborhoodData([0], [1, -1], [0]))
  {
    assert [1][0] == 1 && 1 in [1];
    assert Lid([1], 1) == 0;
    assert LocalIds([1], [1]) == [0];
    assert Resolve([1], [1]).Ok?;
    assert ContactLists(map[1 := [9]], [1]).Ok?;
    assert ContactLists(map[1 := [9]], [1]).value == [[9]];
    assert LocalIds([9], [1]) == [-1];
    var lids := LidLists([[9]], [1]);
    assert lids == [[-1]];
    assert Encode(lids) == [1, -1];
    assert Offsets(lids) == [0];
  }

  /** The size the source allocates for the contact list: one count plus the
      neighbours for every entry of the contact map, whatever the visiting order. */
  ghost function EntrySizes(contacts: map<int, seq<int>>): nat {
    SizeOver(contacts, contacts.Keys)
  }

  ghost function SizeOver(contacts: map<int, seq<int>>, keys: set<int>): nat
    requires keys <= contacts.Keys
    decreases |keys|
  {
    if keys == {} then 0
    else
      HasElement(keys);
      var g :| g in keys;
      |contacts[g]| + 1 + SizeOver(contacts, keys - {g})
  }

  /** The sum does not depend on which key is visited first. */
  lemma {:induction false} SizeOverRemove(contacts: map<int, seq<int>>, keys: set<int>, g: int)
    requires keys <= contacts.Keys && g in keys
    ensures SizeOver(contacts, keys) == |contacts[g]| + 1 + SizeOver(contacts, keys - {g})
    decreases |keys|
  {
    var h :| h in keys && SizeOver(contacts, keys) == |contacts[h]| + 1 + SizeOver(contacts, keys - {h});
    if h != g {
      SizeOverRemove(contacts, keys - {h}, g);
      SizeOverRemove(contacts, keys - {g}, h);
      assert keys - {h} - {g} == keys - {g} - {h};
    }
  }

  /** The sizes of the owned points' entries, in owned order. */
  function KeySizes(contacts: map<int, seq<int>>, owned: seq<int>): nat
    requires forall i :: 0 <= i < |owned| ==> owned[i] in contacts
  {
    if |owned| == 0 then 0 else |contacts[owned[0]]| + 1 + KeySizes(contacts, owned[1..])
  }

  lemma {:induction false} SizeOverOwned(contacts: map<int, seq<int>>, keys: set<int>, owned: seq<int>)
    requires keys <= contacts.Keys && Distinct(owned)
    requires forall i :: 0 <= i < |owned| ==> owned[i] in keys
    ensures SizeOver(contacts, keys) == KeySizes(contacts, owned) + SizeOver(contacts, keys - Elems(owned))
  {
    if |owned| == 0 {
      assert keys - Elems(owned) == keys;
    } else {
      var g := owned[0];
      SizeOverRemove(contacts, keys, g);
      assert forall i :: 0 <= i < |owned| - 1 ==> owned[1..][i] != owned[0];
      SizeOverOwned(contacts, keys - {g}, owned[1..]);
      assert Elems(owned) == {g} + Elems(owned[1..]);
      assert keys - {g} - Elems(owned[1..]) == keys - Elems(owned);
    }
  }

  lemma {:induction false} EncodeLengthByKeys(contacts: map<int, seq<int>>, owned: seq<int>, overlap: seq<int>)
    requires ContactLists(contacts, owned).Ok?
    ensures |Encode(LidLists(ContactLists(contacts, owned).value, overlap))| == KeySizes(contacts, owned)
  {
    if |owned| > 0 {
      EncodeLengthByKeys(contacts, owned[1..], overlap);
      var lids := LidLists(ContactLists(contacts, owned).value, overlap);
      assert lids[1..] == LidLists(ContactLists(contacts, owned[1..]).value, overlap);
    }
  }

  /** The contact list fills the size the source allocates for it exactly when the
      contact map holds an entry for the owned points and for nothing else. */
  lemma ContactTableSize(contacts: map<int, seq<int>>, owned: seq<int>, overlap: seq<int>)
    requires Distinct(owned) && ContactTable(contacts, owned, overlap).Ok?
    ensures |ContactTable(contacts, owned, overlap).value.list| == EntrySizes(contacts)
            <==> contacts.Keys == Elems(owned)
  {
    assert forall i :: 0 <= i < |owned| ==> owned[i] in contacts;
    var lists := ContactLists(contacts, owned).value;
    assert ContactTable(contacts, owned, overlap).value.list == Encode(LidLists(lists, overlap));
    EncodeLengthByKeys(contacts, owned, overlap);
    SizeOverOwned(contacts, contacts.Keys, owned);
    var others := contacts.Keys - Elems(owned);
    assert Elems(owned) <= contacts.Keys;
    if exists x :: x in contacts.Keys && x !in Elems(owned) {
      var h :| h in contacts.Keys && h !in Elems(owned);
      assert h in others;
      SizeOverRemove(contacts, others, h);
    } else {
      assert others == {};
      assert contacts.Keys == Elems(owned);
    }
  }
}

=== FILE: neighborhood_tables.dfy ===
/** The count-prefixed neighbourhood list shared by the bond table, the contact table
    and the spatial search result: for each point its neighbour count followed by
    that many entries. */
module NeighborhoodTables {
  import opened Failures
  import opened Sequences

  /** `PeridigmNS::NeighborhoodData`: the overlap local IDs of the owned points
      (`OwnedIDs`), the count-prefixed list (`NeighborhoodList`) and, per owned point,
      the index of its count in the list (`NeighborhoodPtr`). */
  datatype NeighborhoodData = NeighborhoodData(ownedIds: seq<int>, list: seq<int>, ptr: seq<int>)

  /** The layout `count_0, e_0_1, ..., count_1, e_1_1, ...` of a sequence of segments. */
  function Encode(segs: seq<seq<int>>): seq<int> {
    if |segs| == 0 then [] else [|segs[0]|] + segs[0] + Encode(segs[1..])
  }

  function Lengths(segs: seq<seq<int>>): (r: seq<nat>)
    ensures |r| == |segs| && forall i :: 0 <= i < |segs| ==> r[i] == |segs[i]|
  {
    seq(|segs|, i requires 0 <= i < |segs| => |segs[i]|)
  }

  /** Where each segment's count sits in `Encode(segs)`. */
  function Offsets(segs: seq<seq<int>>): (r: seq<int>)
    ensures |r| == |segs|
  {
    seq(|segs|, i requires 0 <= i < |segs| => |Encode(segs[..i])|)
  }

  lemma {:induction false} EncodeAppend(a: seq<seq<int>>, b: seq<seq<int>>)
    ensures Encode(a + b) == Encode(a) + Encode(b)
  {
    if |a| == 0 {
      assert a + b == b;
    } else {
      assert (a + b)[1..] == a[1..] + b;
      EncodeAppend(a[1..], b);
    }
  }

  /** One count per segment plus every segment's entries. */
  lemma {:induction false} EncodeLength(segs: seq<seq<int>>)
    ensures |Encode(segs)| == |segs| + Sum(Lengths(segs))
  {
    if |segs| > 0 {
      EncodeLength(segs[1..]);
      assert Lengths(segs) == [|segs[0]|] + Lengths(segs[1..]);
    }
  }

  lemma {:induction false} FlattenLength(segs: seq<seq<int>>)
    ensures |Flatten(segs)| == Sum(Lengths(segs))
  {
    if |segs| > 0 {
      FlattenLength(segs[1..]);
      assert Lengths(segs) == [|segs[0]|] + Lengths(segs[1..]);
    }
  }

  /** `ptr[i]` indexes segment i's count, and the count's entries follow it. */
  lemma EncodeEntry(segs: seq<seq<int>>, i: int)
    requires 0 <= i < |segs|
    ensures Offsets(segs)[i] + 1 + |segs[i]| <= |Encode(segs)|
    ensures Encode(segs)[Offsets(segs)[i]] == |segs[i]|
    ensures Encode(segs)[Offsets(segs)[i] + 1 .. Offsets(segs)[i] + 1 + |segs[i]|] == segs[i]
  {
    assert segs == segs[..i] + segs[i..];
    EncodeAppend(segs[..i], segs[i..]);
    assert segs[i..][1..] == segs[i + 1..];
  }

  /** Reads `n` segments from the front of a count-prefixed list; entries after them are
      ignored. A negative count reads as an empty segment, as the source's counting
      loops run zero times; a list that ends early is malformed. */
  function Decode(list: seq<int>, n: nat): (r: Result<seq<seq<int>>>)
    ensures r.Ok? ==> |r.value| == n
    ensures r.Err? ==> r.fault == MalformedNeighborList
    decreases n
  {
    if n == 0 then Ok([])
    else if |list| == 0 then Err(MalformedNeighborList)
    else
      var count := if list[0] < 0 then 0 else list[0];
      if |list| < 1 + count then Err(MalformedNeighborList)
      else
        var rest :- Decode(list[1 + count..], n - 1);
        Ok([list[1..1 + count]] + rest)
  }

  /** Decoding an encoded list gives back its segments, whatever follows it. */
  lemma {:induction false} DecodeEncode(segs: seq<seq<int>>, tail: seq<int>)
    ensures Decode(Encode(segs) + tail, |segs|) == Ok(segs)
  {
    if |segs| > 0 {
      var head, rest := segs[0], Encode(segs[1..]) + tail;
      var list := Encode(segs) + tail;
      assert list == [|head|] + head + rest;
      assert list[0] == |head| && list[1..1 + |head|] == head && list[1 + |head|..] == rest;
      DecodeEncode(segs[1..], tail);
      assert Decode(list, |segs|) == Ok([head] + segs[1..]);
      assert [head] + segs[1..] == segs;
    }
  }

  /** The entries `Decode(list, n)` reads as counts are none of them negative; the
      segment entries between them may be anything. */
  predicate CountsNonNegative(list: seq<int>, n: nat)
    decreases n
  {
    n == 0 || |list| == 0 ||
    (list[0] >= 0 && (|list| < 1 + list[0] || CountsNonNegative(list[1 + list[0]..], n - 1)))
  }

  /** A list whose counts are all honest encodes what it decodes to, followed by the
      entries the decoder ignored. */
  lemma {:induction false} EncodeDecode(list: seq<int>, n: nat)
    requires Decode(list, n).Ok?
    requires CountsNonNegative(list, n)
    ensures Encode(Decode(list, n).value) <= list
    decreases n
  {
    if n > 0 {
      var count := list[0];
      var head, rest := list[..1 + count], list[1 + count..];
      var segs := Decode(list, n).value;
      var tail := Decode(rest, n - 1).value;
      EncodeDecode(rest, n - 1);
      assert Encode(segs) == head + Encode(tail) by {
        assert segs[0] == list[1..1 + count] && segs[1..] == tail;
        assert head == [count] + segs[0];
      }
      assert list == head + rest;
      PrefixExtend(head, Encode(tail), rest);
    }
  }

  lemma PrefixExtend(p: seq<int>, a: seq<int>, b: seq<int>)
    requires a <= b
    ensures p + a <= p + b
  {
    assert p + a == (p + b)[..|p + a|];
  }

  predicate NonNegative(s: seq<int>) {
    forall k :: 0 <= k < |s| ==> s[k] >= 0
  }

  /** An encoded list holds no negative entry exactly when none of its segments does,
      the counts being lengths. */
  lemma {:induction false} EncodeNonNegative(segs: seq<seq<int>>)
    ensures NonNegative(Encode(segs)) <==> forall i :: 0 <= i < |segs| ==> NonNegative(segs[i])
  {
    if |segs| > 0 {
      var head, rest := segs[0], Encode(segs[1..]);
      var e := Encode(segs);
      assert e == [|head|] + head + rest;
      EncodeNonNegative(segs[1..]);
      if NonNegative(e) {
        assert forall k :: 0 <= k < |head| ==> head[k] == e[1 + k];
        assert forall k :: 0 <= k < |rest| ==> rest[k] == e[1 + |head| + k];
        assert forall i :: 1 <= i < |segs| ==> segs[i] == segs[1..][i - 1];
      }
      if forall i :: 0 <= i < |segs| ==> NonNegative(segs[i]) {
        assert forall i :: 0 <= i < |segs| - 1 ==> segs[1..][i] == segs[i + 1];
        forall k | 0 <= k < |e|
          ensures e[k] >= 0
        {
          if 1 <= k < 1 + |head| {
            assert e[k] == head[k - 1];
          } else if k >= 1 + |head| {
            assert e[k] == rest[k - 1 - |head|];
          }
        }
      }
    }
  }

  /** The segment of owned point i as the table's readers find it: the count stored
      at `ptr[i]` and that many entries after it; empty where the table does not hold
      such a segment. */
  function Entry(t: NeighborhoodData, i: int): seq<int> {
    if 0 <= i < |t.ptr| && 0 <= t.ptr[i] < |t.list| && t.list[t.ptr[i]] >= 0 &&
       t.ptr[i] + 1 + t.list[t.ptr[i]] <= |t.list|
    then t.list[t.ptr[i] + 1 .. t.ptr[i] + 1 + t.list[t.ptr[i]]]
    else []
  }
}

=== FILE: ordered_sets.dfy ===
/** A `std::set<int>` as a strictly increasing sequence: its iteration order is
    ascending, which the overlap map layout depends on. */
module OrderedSets {

  predicate Increasing(s: seq<int>) {
    forall i, j :: 0 <= i < j < |s| ==> s[i] < s[j]
  }

  /** `std::set::insert`: the set gains `x` (no change if already present). */
  function Insert(s: seq<int>, x: int): (r: seq<int>)
    requires Increasing(s)
    ensures Increasing(r)
    ensures forall y :: y in r <==> y in s || y == x
    ensures |r| == if x in s then |s| else |s| + 1
  {
    if |s| == 0 then [x]
    else if x < s[0] then [x] + s
    else if x == s[0] then s
    else
      var tail := s[1..];
      assert forall y :: y in s <==> y == s[0] || y in tail by {
        assert s == [s[0]] + tail;
      }
      var rest := Insert(tail, x);
      assert forall j :: 0 <= j < |rest| ==> s[0] < rest[j] by {
        forall j | 0 <= j < |rest|
          ensures s[0] < rest[j]
        {
          assert rest[j] in rest;
        }
      }
      [s[0]] + rest
  }

  /** Inserting every element of `xs`, in order. */
  function InsertAll(s: seq<int>, xs: seq<int>): (r: seq<int>)
    requires Increasing(s)
    ensures Increasing(r)
    ensures forall y :: y in r <==> y in s || y in xs
    decreases |xs|
  {
    if |xs| == 0 then s else InsertAll(Insert(s, xs[0]), xs[1..])
  }

  /** Inserting, in order, every element of `xs` that `excluded` does not hold. */
  function InsertMissing(s: seq<int>, xs: seq<int>, excluded: seq<int>): (r: seq<int>)
    requires Increasing(s)
    ensures Increasing(r)
    ensures forall y :: y in r <==> y in s || (y in xs && y !in excluded)
    decreases |xs|
  {
    if |xs| == 0 then s
    else if xs[0] in excluded then InsertMissing(s, xs[1..], excluded)
    else InsertMissing(Insert(s, xs[0]), xs[1..], excluded)
  }
}

=== FILE: rebalance.dfy ===
/** The contact rebalance of lines 290-357: on every search-frequency step the contact
    points move to a new decomposition, carrying the bond topology with them, a fresh
    contact search is filtered against the bonds, and the overlap map and both
    neighbourhood tables are rebuilt on the new decomposition. */
module Rebalance {
  import opened Failures
  import opened Sequences
  import opened OrderedSets
  import opened IndexMaps
  import opened NeighborhoodTables
  import opened BondMigration
  import opened ContactSearch
  import opened NeighborhoodBuild
  import opened CppIntegers

  /** The contact decomposition one rank holds: its owned map
      (`oneDimensionalContactMap`), its overlap map (`oneDimensionalOverlapContactMap`),
      the bond map (`bondContactMap`), the bond table on the overlap map
      (`neighborhoodData`) and the contact table (`contactNeighborhoodData`). */
  datatype ContactState = ContactState(
    owned: seq<int>,
    overlap: seq<int>,
    bondMap: BlockMap,
    bondTable: NeighborhoodData,
    contactTable: NeighborhoodData)

  /** What a rebalance receives from outside this rank: the owned map of the new
      decomposition, the bond counts and bond neighbour elements the other ranks
      contribute to the imports, and the result of the range search (the searched
      global IDs and the count-prefixed list of the neighbours found for each). */
  datatype Exchange = Exchange(
    newOwned: seq<int>,
    remoteCounts: map<int, int>,
    remoteNeighbors: map<int, seq<int>>,
    searchGids: seq<int>,
    searchList: seq<int>)

  /** Lines 553-562: the current bond table decoded into the neighbour vector on the
      current bond map. The vector starts as zeros of the bond map's point count and
      the decoded global IDs are written from its front; more of them than the vector
      holds is a malformed table. */
  function OldNeighbors(state: ContactState): (r: Result<seq<int>>)
    requires state.bondMap.Valid()
    ensures r.Ok? ==> |r.value| == state.bondMap.NumPoints()
    ensures r.Err? ==> r.fault == MalformedNeighborList
  {
    var flat :- NeighborGlobalIds(state.bondTable, state.overlap);
    if |flat| > state.bondMap.NumPoints() then Err(MalformedNeighborList)
    else Ok(flat + Zeros(state.bondMap.NumPoints() - |flat|))
  }

  /** Lines 450-458: the bond counts imported onto the new owned map, with the count
      read at the bond map's local ID (`ElementSize(bondMapLocalID)`) rather than at the
      owned slot line 455 uses. A point that stays on this rank keeps its own count,
      whatever the other ranks send. */
  function NewCounts(state: ContactState, ex: Exchange): (r: seq<int>)
    requires state.bondMap.Valid()
    ensures |r| == |ex.newOwned|
    ensures Distinct(state.owned) ==>
              forall i, j :: 0 <= i < |ex.newOwned| && 0 <= j < |state.owned| && ex.newOwned[i] == state.owned[j] ==>
                r[i] == BondCount(state.bondMap, state.owned[j])
  {
    ImportScalars(ex.remoteCounts + Contribution(state.owned, NumberOfBonds(state.owned, state.bondMap)),
                  ex.newOwned)
  }

  /** Lines 462-479: the rebalanced bond map: an element of positive size for some
      of the new owned points, never for a point this rank does not own. */
  function NewBondMap(state: ContactState, ex: Exchange): (m: BlockMap)
    requires state.bondMap.Valid()
    ensures m.Valid()
    ensures forall k :: 0 <= k < |m.sizes| ==> m.sizes[k] > 0
    ensures forall g :: g in m.gids ==> g in ex.newOwned
  {
    Compact(ex.newOwned, NewCounts(state, ex))
  }

  /** Lines 565-567: the neighbour vector imported onto the rebalanced bond map. An
      element that stays on this rank with its size keeps its neighbours, whatever the
      other ranks send. */
  function NewNeighbors(state: ContactState, ex: Exchange, prior: seq<int>): (r: seq<int>)
    requires state.bondMap.Valid() && |prior| == state.bondMap.NumPoints()
    ensures |r| == NewBondMap(state, ex).NumPoints()
    ensures var m, b := NewBondMap(state, ex), state.bondMap;
            Distinct(b.gids) ==>
              forall k, j :: 0 <= k < |m.gids| && 0 <= j < |b.gids| && m.gids[k] == b.gids[j] && m.sizes[k] == b.sizes[j] ==>
                ElementValues(m, r, k) == ElementValues(b, prior, j)
  {
    ImportBlocks(ex.remoteNeighbors + BlockContribution(state.bondMap, prior), NewBondMap(state, ex))
  }

  /** Lines 314-332: the IDs to ghost, ascending: the bond neighbours not owned, then
      the off-processor contact neighbours. */
  function Ghosts(owned: seq<int>, nbrs: seq<int>, offProcessor: seq<int>): (r: seq<int>)
    ensures Increasing(r)
    ensures forall g :: g in r <==> (g in nbrs && g !in owned) || g in offProcessor
  {
    InsertAll(BondGhosts(owned, nbrs), offProcessor)
  }

  /** Lines 296-357 after the cadence test: the rebalanced decomposition. */
  function Migrate(state: ContactState, ex: Exchange): Result<ContactState>
    requires state.bondMap.Valid()
  {
    var prior :- OldNeighbors(state);
    var m := NewBondMap(state, ex);
    var nbrs := NewNeighbors(state, ex, prior);
    var search :- SearchContacts(ex.newOwned, m, nbrs, ex.searchGids, ex.searchList);
    var overlap := OverlapMap(ex.newOwned, Ghosts(ex.newOwned, nbrs, search.offProcessor));
    var bondTable :- BondTable(ex.newOwned, overlap, m, nbrs);
    var contactTable :- ContactTable(search.contacts, ex.newOwned, overlap);
    Ok(ContactState(ex.newOwned, overlap, m, bondTable, contactTable))
  }

  /** Lines 290-292: `rebalance(step)` does nothing unless the step is a multiple of the
      search frequency. The two `int` remainders C++ leaves undefined, by a frequency
      of 0 and of the smallest `int` by -1, are faults. */
  function Rebalance(state: ContactState, step: int, frequency: int, ex: Exchange): Result<ContactState>
    requires state.bondMap.Valid()
  {
    if frequency == 0 then Err(ZeroSearchFrequency)
    else if RemOverflows(step, frequency) then Err(RemainderOverflow)
    else if CppRem(step, frequency) != 0 then Ok(state)
    else Migrate(state, ex)
  }

  /** Between search steps the decomposition is left as it is; on a multiple of the
      frequency, whatever its sign, it is rebuilt; the undefined remainders fail. */
  lemma RebalanceCadence(state: ContactState, step: int, frequency: int, ex: Exchange)
    requires state.bondMap.Valid()
    ensures frequency == 0 ==> Rebalance(state, step, frequency, ex) == Err(ZeroSearchFrequency)
    ensures RemOverflows(step, frequency) ==> Rebalance(state, step, frequency, ex) == Err(RemainderOverflow)
    ensures frequency != 0 && !RemOverflows(step, frequency) && step % frequency != 0 ==>
              Rebalance(state, step, frequency, ex) == Ok(state)
    ensures frequency != 0 && !RemOverflows(step, frequency) && step % frequency == 0 ==>
              Rebalance(state, step, frequency, ex) == Migrate(state, ex)
  {
    if frequency != 0 {
      CppRemZero(step, frequency);
    }
  }

  /** The neighbour vector the migration carries, when the old table decodes. */
  function MigratedNeighbors(state: ContactState, ex: Exchange): seq<int>
    requires state.bondMap.Valid() && OldNeighbors(state).Ok?
  {
    NewNeighbors(state, ex, OldNeighbors(state).value)
  }

  /** The filtered contact search of the migration. */
  function MigratedSearch(state: ContactState, ex: Exchange): Result<SearchOutcome>
    requires state.bondMap.Valid() && OldNeighbors(state).Ok?
  {
    SearchContacts(ex.newOwned, NewBondMap(state, ex), MigratedNeighbors(state, ex),
                   ex.searchGids, ex.searchList)
  }

  /** The rebuilt overlap map of the migration. */
  function MigratedOverlap(state: ContactState, ex: Exchange): seq<int>
    requires state.bondMap.Valid() && OldNeighbors(state).Ok? && MigratedSearch(state, ex).Ok?
  {
    OverlapMap(ex.newOwned, Ghosts(ex.newOwned, MigratedNeighbors(state, ex),
                                   MigratedSearch(state, ex).value.offProcessor))
  }

  /** Every migrated bond neighbour and every contact neighbour is in the rebuilt
      overlap map: the owned map comes first and the ghosts cover the rest. */
  lemma GhostsComplete(owned: seq<int>, nbrs: seq<int>, offProcessor: seq<int>, x: int)
    requires x in nbrs || x in offProcessor
    ensures x in OverlapMap(owned, Ghosts(owned, nbrs, offProcessor))
  {
    if x !in owned {
      assert x in Ghosts(owned, nbrs, offProcessor);
    }
  }

  /** The bond table built on the rebuilt overlap map always resolves: compaction over
      the new owned map lets the bonded lists cover the neighbour vector exactly, and
      every neighbour is owned or ghosted. */
  lemma BondTableResolves(owned: seq<int>, counts: seq<int>, nbrs: seq<int>, offProcessor: seq<int>)
    requires |owned| == |counts| && Distinct(owned)
    requires |nbrs| == Compact(owned, counts).NumPoints()
    ensures BondTable(owned, OverlapMap(owned, Ghosts(owned, nbrs, offProcessor)), Compact(owned, counts), nbrs).Ok?
  {
    var m := Compact(owned, counts);
    var overlap := OverlapMap(owned, Ghosts(owned, nbrs, offProcessor));
    CoverByCounts(owned, counts, nbrs);
    forall x | x in Flatten(BondedLists(owned, m, nbrs))
      ensures x in overlap
    {
      GhostsComplete(owned, nbrs, offProcessor, x);
    }
  }

  /** The migration fails only on a malformed bond table or search list, or when the
      search did not cover an owned point; the overlap map it builds always resolves
      the bond and owned IDs, so no UnresolvedGid arises. */
  lemma MigrateSucceeds(state: ContactState, ex: Exchange)
    requires state.bondMap.Valid() && Distinct(ex.newOwned)
    ensures Migrate(state, ex).Ok? <==>
              && OldNeighbors(state).Ok?
              && Decode(ex.searchList, |ex.searchGids|).Ok?
              && (forall g :: g in ex.newOwned ==> g in ex.searchGids)
    ensures Migrate(state, ex).Err? ==>
              || Migrate(state, ex).fault == MalformedNeighborList
              || (Migrate(state, ex).fault.MissingContactKey? &&
                  Migrate(state, ex).fault.gid in ex.newOwned &&
                  Migrate(state, ex).fault.gid !in ex.searchGids)
  {
    var o := OldNeighbors(state);
    if o.Ok? {
      var m := NewBondMap(state, ex);
      var nbrs := NewNeighbors(state, ex, o.value);
      var s := SearchContacts(ex.newOwned, m, nbrs, ex.searchGids, ex.searchList);
      if s.Ok? {
        var overlap := OverlapMap(ex.newOwned, Ghosts(ex.newOwned, nbrs, s.value.offProcessor));
        BondTableResolves(ex.newOwned, NewCounts(state, ex), nbrs, s.value.offProcessor);
        var t := ContactTable(s.value.contacts, ex.newOwned, overlap);
        assert Migrate(state, ex) == if t.Ok? then Ok(ContactState(ex.newOwned, overlap, m,
                                      BondTable(ex.newOwned, overlap, m, nbrs).value, t.value))
                                    else Err(t.fault);
      }
    }
  }

  /** A successful migration in terms of its named stages. */
  lemma MigrateParts(state: ContactState, ex: Exchange)
    requires state.bondMap.Valid() && Migrate(state, ex).Ok?
    ensures OldNeighbors(state).Ok? && MigratedSearch(state, ex).Ok?
    ensures var m := NewBondMap(state, ex);
            var nbrs := MigratedNeighbors(state, ex);
            var overlap := MigratedOverlap(state, ex);
            var contacts := MigratedSearch(state, ex).value.contacts;
            && BondTable(ex.newOwned, overlap, m, nbrs).Ok?
            && ContactTable(contacts, ex.newOwned, overlap).Ok?
            && var r := Migrate(state, ex).value;
            && r.owned == ex.newOwned && r.overlap == overlap && r.bondMap == m
            && r.bondTable == BondTable(ex.newOwned, overlap, m, nbrs).value
            && r.contactTable == ContactTable(contacts, ex.newOwned, overlap).value
  {
  }

  /** The contact neighbour lists of the migration and its off-processor set, as the
      search filter made them. */
  lemma MigratedSearchFilters(state: ContactState, ex: Exchange)
    requires state.bondMap.Valid() && OldNeighbors(state).Ok? && MigratedSearch(state, ex).Ok?
    ensures Decode(ex.searchList, |ex.searchGids|).Ok?
    ensures MigratedSearch(state, ex).value ==
              FilterSearch(ex.newOwned, NewBondMap(state, ex), MigratedNeighbors(state, ex),
                           ex.searchGids, Decode(ex.searchList, |ex.searchGids|).value)
  {
  }

  /** Every contact neighbour the migration keeps is in the rebuilt overlap map. */
  lemma ContactNeighborGhosted(state: ContactState, ex: Exchange, g: int, x: int)
    requires state.bondMap.Valid() && OldNeighbors(state).Ok? && MigratedSearch(state, ex).Ok?
    requires g in MigratedSearch(state, ex).value.contacts
    requires x in MigratedSearch(state, ex).value.contacts[g]
    ensures x in MigratedOverlap(state, ex)
  {
    var search := MigratedSearch(state, ex).value;
    MigratedSearchFilters(state, ex);
    FilterSearchOffProcessor(ex.newOwned, NewBondMap(state, ex), MigratedNeighbors(state, ex),
                             ex.searchGids, Decode(ex.searchList, |ex.searchGids|).value, x);
    if x !in ex.newOwned {
      GhostsComplete(ex.newOwned, MigratedNeighbors(state, ex), search.offProcessor, x);
    }
  }

  /** The ghosts of the migration are the IDs this rank does not own that a migrated
      bond or a retained contact refers to. */
  lemma MigratedGhosts(state: ContactState, ex: Exchange, y: int)
    requires state.bondMap.Valid() && OldNeighbors(state).Ok? && MigratedSearch(state, ex).Ok?
    ensures var search := MigratedSearch(state, ex).value;
            y in Ghosts(ex.newOwned, MigratedNeighbors(state, ex), search.offProcessor) <==>
              (y !in ex.newOwned &&
               (y in MigratedNeighbors(state, ex) || exists g :: g in search.contacts && y in search.contacts[g]))
  {
    MigratedSearchFilters(state, ex);
    FilterSearchOffProcessor(ex.newOwned, NewBondMap(state, ex), MigratedNeighbors(state, ex),
                             ex.searchGids, Decode(ex.searchList, |ex.searchGids|).value, y);
  }

  /** Lines 336-343: the rebuilt overlap map lists the new owned map in order, then
      without repetition and ascending exactly the IDs this rank does not own that a
      migrated bond or a retained contact refers to. */
  lemma OverlapLayoutAfterMigration(state: ContactState, ex: Exchange)
    requires state.bondMap.Valid() && Distinct(ex.newOwned)
    requires OldNeighbors(state).Ok? && MigratedSearch(state, ex).Ok?
    ensures var ov := MigratedOverlap(state, ex);
            var n := |ex.newOwned|;
            var contacts := MigratedSearch(state, ex).value.contacts;
            && |ov| >= n && ov[..n] == ex.newOwned
            && Distinct(ov)
            && Increasing(ov[n..])
            && forall y :: y in ov[n..] <==>
                 (y !in ex.newOwned &&
                  (y in MigratedNeighbors(state, ex) || exists g :: g in contacts && y in contacts[g]))
  {
    var search := MigratedSearch(state, ex).value;
    var ghosts := Ghosts(ex.newOwned, MigratedNeighbors(state, ex), search.offProcessor);
    forall y
      ensures y in ghosts <==>
                (y !in ex.newOwned &&
                 (y in MigratedNeighbors(state, ex) || exists g :: g in search.contacts && y in search.contacts[g]))
    {
      MigratedGhosts(state, ex, y);
    }
    OverlapLayout(ex.newOwned, ghosts);
  }

  /** The state invariant the rebalance maintains: the bond map is the compaction of
      the owned map by its own counts, and the bond table decodes on the overlap map
      to a neighbour vector of the bond map's size. */
  predicate Consistent(s: ContactState) {
    && Distinct(s.owned)
    && CompactOver(s.bondMap, s.owned)
    && NeighborGlobalIds(s.bondTable, s.overlap).Ok?
    && |NeighborGlobalIds(s.bondTable, s.overlap).value| == s.bondMap.NumPoints()
  }

  /** A migration onto a new owned map without repetitions yields a consistent state
      whose bond table carries exactly the migrated neighbour vector. */
  lemma MigrateConsistent(state: ContactState, ex: Exchange)
    requires state.bondMap.Valid() && Distinct(ex.newOwned) && Migrate(state, ex).Ok?
    ensures OldNeighbors(state).Ok?
    ensures Consistent(Migrate(state, ex).value)
    ensures NeighborGlobalIds(Migrate(state, ex).value.bondTable, Migrate(state, ex).value.overlap)
            == Ok(MigratedNeighbors(state, ex))
  {
    MigrateParts(state, ex);
    var m := NewBondMap(state, ex);
    CountsRoundTrip(ex.newOwned, NewCounts(state, ex));
    BondTableRoundTrip(ex.newOwned, MigratedOverlap(state, ex), m, MigratedNeighbors(state, ex));
  }

  /** The rebalance keeps the state consistent, on search steps and between them. */
  lemma RebalanceConsistent(state: ContactState, step: int, frequency: int, ex: Exchange)
    requires Consistent(state) && Distinct(ex.newOwned)
    requires Rebalance(state, step, frequency, ex).Ok?
    ensures Consistent(Rebalance(state, step, frequency, ex).value)
  {
    if CppRem(step, frequency) == 0 {
      MigrateConsistent(state, ex);
    }
  }

  /** Line 658 stores contact local IDs unchecked, but within the rebalance every
      contact neighbour has been ghosted: no entry of the rebuilt contact table, count
      or local ID, is -1 or below. */
  lemma MigratedContactLids(state: ContactState, ex: Exchange)
    requires state.bondMap.Valid() && Migrate(state, ex).Ok?
    ensures NonNegative(Migrate(state, ex).value.contactTable.ownedIds)
    ensures NonNegative(Migrate(state, ex).value.contactTable.list)
  {
    MigrateParts(state, ex);
    var ov := MigratedOverlap(state, ex);
    var contacts := MigratedSearch(state, ex).value.contacts;
    forall g, x | g in ex.newOwned && g in contacts && x in contacts[g]
      ensures x in ov
    {
      ContactNeighborGhosted(state, ex, g, x);
    }
    ContactTableNonNegative(contacts, ex.newOwned, ov);
  }

  /** The same for the rebuilt bond table. */
  lemma MigratedBondLids(state: ContactState, ex: Exchange)
    requires state.bondMap.Valid() && Migrate(state, ex).Ok?
    ensures NonNegative(Migrate(state, ex).value.bondTable.ownedIds)
    ensures NonNegative(Migrate(state, ex).value.bondTable.list)
  {
    MigrateParts(state, ex);
    BondTableNonNegative(ex.newOwned, MigratedOverlap(state, ex), NewBondMap(state, ex), MigratedNeighbors(state, ex));
  }

  /** Reading the rebuilt contact table back: owned point i's entry leads, through the
      overlap map, to its retained contact neighbours. */
  lemma MigratedContactEntry(state: ContactState, ex: Exchange, i: int)
    requires state.bondMap.Valid() && Migrate(state, ex).Ok? && 0 <= i < |ex.newOwned|
    ensures OldNeighbors(state).Ok? && MigratedSearch(state, ex).Ok?
    ensures var r := Migrate(state, ex).value;
            var contacts := MigratedSearch(state, ex).value.contacts;
            && ex.newOwned[i] in contacts
            && GlobalIds(Entry(r.contactTable, i), r.overlap) == contacts[ex.newOwned[i]]
  {
    MigrateParts(state, ex);
    var ov := MigratedOverlap(state, ex);
    var contacts := MigratedSearch(state, ex).value.contacts;
    var g := ex.newOwned[i];
    forall x | x in contacts[g]
      ensures x in ov
    {
      ContactNeighborGhosted(state, ex, g, x);
    }
    ContactEntryReadsBack(contacts, ex.newOwned, ov, i);
  }

  /** Reading the rebuilt bond table back: owned point i's entry leads, through the
      overlap map, to its migrated bonded neighbours. */
  lemma MigratedBondEntry(state: ContactState, ex: Exchange, i: int)
    requires state.bondMap.Valid() && Migrate(state, ex).Ok? && 0 <= i < |ex.newOwned|
    ensures OldNeighbors(state).Ok? && Migrate(state, ex).value.bondMap == NewBondMap(state, ex)
    ensures var r := Migrate(state, ex).value;
            GlobalIds(Entry(r.bondTable, i), r.overlap)
              == BondedNeighbors(NewBondMap(state, ex), MigratedNeighbors(state, ex), ex.newOwned[i])
  {
    MigrateParts(state, ex);
    var ov := MigratedOverlap(state, ex);
    var m := NewBondMap(state, ex);
    var nbrs := MigratedNeighbors(state, ex);
    BondEntryReadsBack(ex.newOwned, ov, m, nbrs, i);
  }

  /** Contact/bond exclusivity in the rebuilt tables: no global ID the contact entry of
      an owned point leads to is one its bond entry leads to. */
  lemma MigratedExclusive(state: ContactState, ex: Exchange, i: int, x: int)
    requires state.bondMap.Valid() && Migrate(state, ex).Ok? && 0 <= i < |ex.newOwned|
    ensures var r := Migrate(state, ex).value;
            x in GlobalIds(Entry(r.contactTable, i), r.overlap) ==>
              x !in GlobalIds(Entry(r.bondTable, i), r.overlap)
  {
    MigratedContactEntry(state, ex, i);
    MigratedBondEntry(state, ex, i);
    var contacts := MigratedSearch(state, ex).value.contacts;
    var g := ex.newOwned[i];
    if x in contacts[g] {
      MigratedSearchFilters(state, ex);
      FilterSearchExcludesBonds(ex.newOwned, NewBondMap(state, ex), MigratedNeighbors(state, ex),
                                ex.searchGids, Decode(ex.searchList, |ex.searchGids|).value, g, x);
    }
  }

  /** Migrating a consistent state onto its own owned map, whatever the other ranks
      contribute, keeps the bond map and carries the neighbour vector over unchanged. */
  lemma MigrateInPlace(state: ContactState, ex: Exchange)
    requires Consistent(state) && ex.newOwned == state.owned
    ensures OldNeighbors(state) == NeighborGlobalIds(state.bondTable, state.overlap)
    ensures NewBondMap(state, ex) == state.bondMap
    ensures MigratedNeighbors(state, ex) == NeighborGlobalIds(state.bondTable, state.overlap).value
  {
    var flat := NeighborGlobalIds(state.bondTable, state.overlap).value;
    assert flat + Zeros(0) == flat;
    var counts := NumberOfBonds(state.owned, state.bondMap);
    ImportScalarsRoundTrip(ex.remoteCounts, state.owned, counts);
    CompactDistinct(state.owned, counts);
    ImportBlocksRoundTrip(ex.remoteNeighbors, state.bondMap, flat);
  }

  /** A successful migration of a consistent state onto its own owned map leaves the
      bond map as it was, and the rebuilt bond table decodes to the same neighbour
      vector as the old one. */
  lemma MigrateInPlaceKeepsBonds(state: ContactState, ex: Exchange)
    requires Consistent(state) && ex.newOwned == state.owned && Migrate(state, ex).Ok?
    ensures Migrate(state, ex).value.bondMap == state.bondMap
    ensures NeighborGlobalIds(Migrate(state, ex).value.bondTable, Migrate(state, ex).value.overlap)
            == NeighborGlobalIds(state.bondTable, state.overlap)
  {
    MigrateInPlace(state, ex);
    MigrateParts(state, ex);
    MigrateConsistent(state, ex);
  }
}

=== FILE: sequences.dfy ===
/** Sequence vocabulary shared by the maps, tables and searches. */
module Sequences {

  predicate Distinct<T(==)>(s: seq<T>) {
    forall i, j :: 0 <= i < j < |s| ==> s[i] != s[j]
  }

  /** The elements of a sequence as a set. */
  function Elems<T>(s: seq<T>): set<T> {
    set x | x in s
  }

  function Sum(s: seq<nat>): nat {
    if |s| == 0 then 0 else s[0] + Sum(s[1..])
  }

  lemma {:induction false} SumAppend(a: seq<nat>, b: seq<nat>)
    ensures Sum(a + b) == Sum(a) + Sum(b)
  {
    if |a| == 0 {
      assert a + b == b;
    } else {
      assert (a + b)[1..] == a[1..] + b;
      SumAppend(a[1..], b);
    }
  }

  /** Concatenation of a sequence of segments. */
  function Flatten<T>(segs: seq<seq<T>>): seq<T> {
    if |segs| == 0 then [] else segs[0] + Flatten(segs[1..])
  }

  lemma {:induction false} FlattenAppend<T>(a: seq<seq<T>>, b: seq<seq<T>>)
    ensures Flatten(a + b) == Flatten(a) + Flatten(b)
  {
    if |a| == 0 {
      assert a + b == b;
    } else {
      assert (a + b)[1..] == a[1..] + b;
      FlattenAppend(a[1..], b);
    }
  }

  lemma {:induction false} FlattenMembers<T>(segs: seq<seq<T>>, k: int, x: T)
    requires 0 <= k < |segs| && x in segs[k]
    ensures x in Flatten(segs)
  {
    if k > 0 {
      FlattenMembers(segs[1..], k - 1, x);
    }
  }

  /** `a` is `b` with some elements left out, the rest in their original order. */
  predicate IsSubsequence<T(==)>(a: seq<T>, b: seq<T>)
    decreases |b|
  {
    if |a| == 0 then true
    else if |b| == 0 then false
    else if a[0] == b[0] then IsSubsequence(a[1..], b[1..])
    else IsSubsequence(a, b[1..])
  }

  /** A subsequence of `b` stays one when an element is put in front of `b`. */
  lemma {:induction false} SubsequencePrepend<T>(a: seq<T>, b: seq<T>, x: T)
    requires IsSubsequence(a, b)
    ensures IsSubsequence(a, [x] + b)
    decreases |b|, 1
  {
    assert ([x] + b)[1..] == b;
    if |a| > 0 && a[0] == x {
      SubsequenceDropFirst(a, b);
    }
  }

  /** Without its first element a subsequence of `b` is still one. */
  lemma {:induction false} SubsequenceDropFirst<T>(a: seq<T>, b: seq<T>)
    requires |a| > 0 && IsSubsequence(a, b)
    ensures IsSubsequence(a[1..], b)
    decreases |b|, 0
  {
    assert b == [b[0]] + b[1..];
    if a[0] == b[0] {
      SubsequencePrepend(a[1..], b[1..], b[0]);
    } else {
      SubsequenceDropFirst(a, b[1..]);
      SubsequencePrepend(a[1..], b[1..], b[0]);
    }
  }

  /** A set that is not empty has a member to pick. */
  lemma HasElement(s: set<int>)
    requires s != {}
    ensures exists x :: x in s
  {
    if forall x :: x !in s {
      assert false;
    }
  }
}
